=== FILE: README.md ===
# Actors and movies: a Dafny model of the CRUD core

The application keeps two tables, actors and movies, joined many-to-many by an association table.
A generic mixin on both record classes offers `create`, `update`, `delete`, `add_relation`,
`remove_relation` and `clear_relations`. Each controller has seven request handlers: list all, get by
id, add, update, delete, add relation and clear relations. Each handler validates the request's
fields in a fixed order. It answers the first check that fails with an error and touches nothing;
if every check passes it makes exactly one mixin call. The reply depends on the handler: a delete
answers with a confirmation message, the add and clear relation handlers answer with the public
projection of the row plus its related collection, and the others with the public projection alone.

The model is pure and functional.

- `Db.Store` is the database. It holds two maps from key to row, the set of `(actor_id, movie_id)`
  association pairs, and the two key sequences.
- A mixin call (`Base`) returns a new store or a `StoreError`. Failures the storage engine raises at
  commit are part of that result: a duplicate key, a null or duplicate name, an unstorable value,
  or an association naming a missing row.
- `Entities.Coerce` is what the engine does to a Python value when it writes a column. A `str` in an
  `Integer` column is read as a decimal integer; an over-long `str` in a `String(n)` column is
  refused, and so is a value of an unrelated type (a `str` in a `Date` column, an `int` in a
  `String(n)` column).
- `Base.Delete` removes the row together with the association pairs that mention it. That is a
  choice of the model; the Base.Delete line under "Left out" says why the source does not settle it.
- A request (`Requests.Form`) is the ordered list of its keys plus the key-to-text map. Order
  matters: the controllers list unknown fields in request order.
- Python's `int()` and `strptime` are passed to every handler as `Requests.Parsers`. Their lexical
  rules belong to the library and stay abstract.
- A handler returns an `Exchange`: the store afterwards and either a reply body or a `Failure`.
  `Requests.Describe` gives each failure's message text, as the controllers write it.
- Each handler's validation order is stated against `Requests.FirstFailure`. That is a reference
  definition: a list of checks, in source order, whose first failing entry is the answer.

The modules are:

| module | file | contents |
|---|---|---|
| `Results` | results.dfy | `Option`, `Result` |
| `Settings` | settings.dfy | the public field lists and the date format |
| `Seqs` | seqs.dfy | order-preserving filter, `join`, decimal text of integers, ascending key order |
| `Numerals` | numerals.dfy | reading the decimal text of an integer back gives the integer |
| `Entities` | entities.dfy | values, column types, coercion, actor and movie rows |
| `Db` | db.dfy | the store, association views, schema constraints |
| `Base` | base.dfy | the mixin |
| `Requests` | requests.dfy | forms, failures, checks, projection, listing, dispatch to the mixin |
| `ActorHandlers` | actor_handlers.dfy | controllers/actor.py |
| `MovieHandlers` | movie_handlers.dfy | controllers/movie.py |
| `Scenario` | scenario.dfy | my_tests/test_class_methods.py, replayed |
| `HandlerCases` | handler_cases.dfy | a concrete request and its answer |

## Model

| member | source | states |
|---|---|---|
| Entities.FieldsAreKeyAndColumns | settings/constants.py:8-9 | the public field list starts with the key, holds exactly the mapped columns besides it, and names no field twice |
| Entities.Coerce | models/actor.py:10-13 | a value the engine accepts conforms to the column's type; a conforming value is stored unchanged; text in an integer column is accepted exactly when it is a decimal integer, and then becomes that integer |
| Entities.Actor.Assign | models/base.py:39-41 | every column named in the values takes the supplied value; every other column keeps its own |
| Numerals.DecimalRoundTrip | models/movie.py:13 | reading the decimal text of any integer gives back that integer |
| Seqs.SortedInts | controllers/actor.py:17-22 | the listing enumerates every key exactly once, in strictly ascending order |
| Db.ViewsAgree | models/actor.py:15-20 | a movie is in an actor's filmography exactly when that actor is in the movie's cast; both are the association table |
| Base.ErrorText | models/base.py:37 | the mixin writes a text of its own exactly for its not-found error |
| Base.NotFoundTextNamesKey | models/base.py:74 | the "ID {row_id} not found." text embeds the key so that it reads back as that key |
| Base.Create | models/base.py:16-24 | unknown keywords fail; on commit the new row's key was free, each column holds the engine's value of its keyword or null, the name is non-null and held by no other row, the sequence advances unless a key was given, and nothing else changes |
| Base.CreateCommits | models/base.py:16-24 | `create` commits whenever the keywords are columns, every value is storable, the next key is free and the name is present and unused; the row gets the sequence's next key |
| Base.Update | models/base.py:27-43 | an absent key fails with the "ID {id} not found." error; on commit the supplied columns take the engine's value of the new value, the others keep theirs, the name stays non-null and unique, and nothing outside the row changes |
| Base.UpdateCommits | models/base.py:35-43 | `update` of an existing row commits whenever every value is storable and the resulting name is present and held by no other row |
| Base.UpdateIgnoresNonColumns | models/base.py:39-41 | keyword arguments that are not mapped columns, `id` among them, do not change the outcome of the modelled `update` |
| Base.Delete | models/base.py:46-61 | returns 1 when the row exists, and then removes it together with exactly the associations that mention it; otherwise returns 0 and changes nothing; no other row and no sequence changes |
| Base.AddRelation | models/base.py:64-82 | an absent key fails with NotFound; when both rows exist and are not yet linked the call commits; on commit the related row is in the collection, exactly that one association is added, and no row changes |
| Base.RemoveRelation | models/base.py:85-105 | an absent key fails with NotFound; otherwise the related row is no longer in the collection, only that association is removed, and a row that was not related leaves the store unchanged |
| Base.ClearRelations | models/base.py:108-127 | an absent key fails with NotFound; otherwise the row's related collection is empty, every association not involving the row survives, and no association is created |
| Base.ClearRelationsOneByOne | models/base.py:119-125 | removing the members of a snapshot of the related collection one at a time, in whatever order the query lists them, ends in the same store as clearing it at once |
| Base.AddThenRemove | models/base.py:64-105 | removing an association that `add_relation` has just added restores the original store |
| Base.CreatePreservesValid | models/actor.py:10-13 | a committed `create` keeps every declared constraint: typed columns, non-null unique names, associations naming existing rows |
| Base.UpdatePreservesValid | models/base.py:27-43 | a committed `update` keeps every declared constraint |
| Base.DeletePreservesValid | models/base.py:46-61 | `delete` of any key keeps every declared constraint, the foreign keys of the association table included |
| Base.RelationChangesPreserveValid | models/relations.py:4-7 | committed `add_relation`, `remove_relation` and `clear_relations` keep every declared constraint |
| Requests.Describe | controllers/actor.py:38-252 | every failure the controllers detect has a message text; only a storage failure other than the mixin's not-found error carries the engine's own text |
| Requests.AbsentTextNamesKey | controllers/movie.py:50 | the "… with such id {id} does not exist." texts embed the requested key so that it reads back as that key |
| Requests.MissingFieldsText | controllers/actor.py:73 | a missing-fields answer starts with "Missing required fields: " whatever the list |
| Requests.Dispatch | controllers/actor.py:98-145 | the store changes only when every check passes and the mixin call commits; an answer that is not a storage failure is the validation failure, with the store unchanged |
| Requests.FirstFailure | controllers/actor.py:67-86 | the answer is None exactly when every check passes; otherwise it is the failure of a failing check all of whose predecessors pass |
| Requests.FirstFailureAppend | controllers/actor.py:105-136 | running one list of checks and then another answers like running their concatenation |
| Requests.RequireRow | controllers/actor.py:37-50 | `id` present, then an integer, then an existing row, checked in that order; success yields that key of an existing row |
| Requests.Missing | controllers/actor.py:68-69 | lists exactly the non-key columns the request lacks |
| Requests.Unknown | controllers/actor.py:76 | lists exactly the request keys outside the public field list |
| Requests.UnknownInRequestOrder | controllers/movie.py:76 | unknown keys among the first n request keys are listed before those among the rest |
| Requests.Projection | controllers/actor.py:53 | the projection has exactly the public fields: the key and every column's stored value |
| Requests.ListAll | controllers/actor.py:16-24 | lists the projection of every row, one per key, and leaves the store unchanged |
| Requests.ListAllShowsEveryRow | controllers/movie.py:16-23 | the listing has as many entries as the table has rows, and every row's projection appears in it |
| Requests.Perform | controllers/actor.py:89-92 | a mixin failure leaves the store unchanged and is reported as a store failure; every success reply shows only public fields |
| ActorHandlers.WithDate | controllers/actor.py:81-84 | a supplied date of birth is replaced by the date it parses to; every other value stays the text it arrived as |
| ActorHandlers.GetActorById | controllers/actor.py:30-57 | never changes the store; fails exactly with the first failing id check; success returns the projection of the existing row named by the id |
| ActorHandlers.PlanAddActor | controllers/actor.py:67-89 | missing fields, then unknown fields, then the date format; passing all of them yields `create` with the request's values and the parsed date |
| ActorHandlers.AddActor | controllers/actor.py:60-95 | an error reply leaves the store unchanged; every reply shows only public fields |
| ActorHandlers.AddActorRejects | controllers/actor.py:67-89 | a request failing a check is answered with the first failing check in the handler's order, and the store is unchanged |
| ActorHandlers.AddActorStoresRequest | controllers/actor.py:81-92 | a successful add stores a new row with exactly the request's name, gender and parsed date under a key that was free, answers with that row, changes nothing else, and keeps every constraint |
| ActorHandlers.GetFinds | controllers/actor.py:41-54 | asking for an existing key by any text `int()` reads as that key answers with the row's projection |
| ActorHandlers.AddThenGet | controllers/actor.py:47-54 | after a successful add, getting the reported key answers with the same row |
| ActorHandlers.PlanUpdateActor | controllers/actor.py:105-139 | the id checks, then unknown fields, then the date format; passing all of them yields `update` of that row with the request's values, parsed date, minus `id` |
| ActorHandlers.UpdateActor | controllers/actor.py:98-145 | a failing check answers with the first failure and leaves the store unchanged; every reply shows only public fields |
| ActorHandlers.UpdateActorWritesRequest | controllers/actor.py:130-142 | a successful update writes each supplied column, the date parsed, keeps the unsupplied ones, changes nothing outside the row, and keeps every constraint |
| ActorHandlers.UpdateReportsUnknownAsMissing | controllers/actor.py:124-128 | once the id checks pass, unknown fields are answered under "Missing required fields: " and the store is unchanged |
| ActorHandlers.DeleteActor | controllers/actor.py:148-180 | a failing id check, whose absent-row text is "Record with such id …", answers first; otherwise the mixin deletes exactly one row and the reply is "Record successfully deleted." |
| ActorHandlers.PlanAddRelation | controllers/actor.py:190-219 | actor id present, movie id present, both integers, actor exists, movie exists, in that order; passing all of them yields `add_relation` on the actor |
| ActorHandlers.ActorAddRelation | controllers/actor.py:183-225 | a failing check answers with the first failure and leaves the store unchanged; every reply shows only public fields |
| ActorHandlers.AddRelationLinks | controllers/actor.py:219-222 | a successful link puts the movie in the filmography and the actor in the cast, adds only that association, and answers with the actor and its whole filmography |
| ActorHandlers.ActorClearRelations | controllers/actor.py:228-261 | a failing id check answers first; otherwise the filmography is empty, no row changes, and the reply shows the actor with an empty filmography |
| ActorHandlers.ClearLeavesOthers | controllers/actor.py:255-258 | clearing one actor leaves every other actor's associations and filmography as they were and keeps every constraint |
| MovieHandlers.WithYear | controllers/movie.py:80-84 | a supplied year is replaced by the integer it parses to; every other value stays the text it arrived as |
| MovieHandlers.GetMovieById | controllers/movie.py:29-58 | never changes the store; fails exactly with the first failing id check; success returns the projection of the existing row named by the id |
| MovieHandlers.PlanAddMovie | controllers/movie.py:67-87 | missing fields, then unknown fields, then the year; passing all of them yields `create` with the request's values and the parsed year |
| MovieHandlers.AddMovie | controllers/movie.py:60-93 | an error reply leaves the store unchanged; every reply shows only public fields |
| MovieHandlers.AddMovieRejects | controllers/movie.py:67-87 | a request failing a check is answered with the first failing check in the handler's order, and the store is unchanged |
| MovieHandlers.AddMovieStoresRequest | controllers/movie.py:80-90 | a successful add stores a new row with exactly the request's name, parsed year and genre under a key that was free, answers with that row, and keeps every constraint |
| MovieHandlers.GetFinds | controllers/movie.py:42-55 | asking for an existing key by any text `int()` reads as that key answers with the row's projection |
| MovieHandlers.AddThenGet | controllers/movie.py:47-55 | after a successful add, getting the reported key answers with the same row |
| MovieHandlers.PlanUpdateMovie | controllers/movie.py:103-137 | the id checks, then unknown fields, then the year; passing all of them yields `update` of that row with the request's texts, year included, minus `id` |
| MovieHandlers.UpdateMovie | controllers/movie.py:96-143 | a failing check answers with the first failure and leaves the store unchanged; every reply shows only public fields |
| MovieHandlers.UpdateMovieWritesRequest | controllers/movie.py:128-140 | a successful update writes each supplied column, the year as the integer its text denotes, keeps the unsupplied ones, changes nothing outside the row, and keeps every constraint |
| MovieHandlers.UpdateYearRoundTrip | controllers/movie.py:128-137 | a year sent as the decimal text of y is stored as the integer y |
| MovieHandlers.UpdateReportsUnknownAsMissing | controllers/movie.py:122-126 | once the id checks pass, unknown fields are answered under "Missing required fields: " and the store is unchanged |
| MovieHandlers.DeleteMovie | controllers/movie.py:146-178 | a failing id check answers first; otherwise the mixin deletes exactly one row and the reply is "Record successfully deleted." |
| MovieHandlers.PlanAddRelation | controllers/movie.py:188-217 | movie id present, actor id present, both integers, movie exists, actor exists, in that order; passing all of them yields `add_relation` on the movie |
| MovieHandlers.MovieAddRelation | controllers/movie.py:181-223 | a failing check answers with the first failure and leaves the store unchanged; every reply shows only public fields |
| MovieHandlers.AddRelationLinks | controllers/movie.py:217-220 | a successful link puts the actor in the cast and the movie in the filmography, adds only that association, and answers with the movie and its whole cast |
| MovieHandlers.MovieClearRelations | controllers/movie.py:226-259 | a failing id check answers first; otherwise the cast is empty, no row changes, and the reply shows the movie with an empty cast |
| MovieHandlers.ClearLeavesOthers | controllers/movie.py:253-256 | clearing one movie leaves every other movie's associations and cast as they were and keeps every constraint |
| Scenario.WalkOutcome | my_tests/test_class_methods.py:30-50 | on an empty store every call of the walk-through commits: keys 1, 1 and 2, filmography {1, 2} after the two links, empty after clearing, and `delete` reports 1 |
| HandlerCases.AddActorWithoutGender | controllers/actor.py:68-73 | a request with name and date of birth but no gender is refused, naming exactly `gender` as missing, whatever the store holds |

## Left out

- Flask plumbing is not modelled: routing, `jsonify`, status codes, and the mapping from a caught exception to a 400 or 500 reply. A reply is modelled as its body or its `Failure`. How a `StoreFailed` becomes an HTTP answer is not modelled either.
- controllers/parse_request.py is not part of this model. A request arrives as a `Form`: distinct keys in form order, each with its text.
- The lexical rules of Python's `int()` and `strptime` with the date format are left abstract, as the two functions of `Requests.Parsers`.
- Entities.Coerce: reads only an optional sign followed by ASCII digits. Surrounding whitespace, digit-group underscores and the engine's 32-bit range are left out, because they depend on the storage engine. It also refuses a `str` in a `Date` column and an `int` in a `String(n)` column; that is the behaviour of a strict engine, chosen here, while a lenient one would store or convert them.
- Base.Create: refuses every keyword that is neither `id` nor a mapped column. The ORM's default constructor (reached from models/base.py:23) sets any keyword the class has as an attribute, such as `query`, `metadata` or a mixin method name, and the commit then goes through; the model does not promise that outcome. No handler reaches it, since the controllers refuse fields outside the public lists. Key assignment follows one engine's sequence, a PostgreSQL-style counter, and other engines differ: an explicit `id` (which `add_actor` and `add_movie` forward, since `id` is in the public field lists of settings/constants.py:8-9) does not move the counter, so a later row without `id` may be given a smaller key, or be refused with `DuplicateKey` when the counter reaches the explicit one; a deleted key is never handed out again; and when a commit fails the counter does not advance. A SQLite rowid or a MySQL `AUTO_INCREMENT` column would continue above an explicit key, and SQLite reuses a freed top key.
- Base.Delete: removing a linked row's association pairs is the model's choice. Two relationships write the same `association` table (models/actor.py:15-20 and models/movie.py:16-21), so `session.delete` (models/base.py:57) may clear the pairs once, may fail when the second relationship finds them already gone, or may be refused by the foreign keys; which happens depends on the ORM and the engine. The model promises none of those outcomes for a row that has associations.
- Base.AddRelation: a second identical association is refused with `DuplicateLink`, because the association table's composite primary key (models/relations.py:5-6) forbids it. Nothing is promised for that case beyond the refusal. `rel_obj` is modelled as the key of a stored row; a transient object would be inserted by the ORM's save-update cascade, so "no row changes" holds only for a stored `rel_obj`.
- Explicit `id` keyword: `create` honours an explicit `id` by using the engine's integer reading of it as the key. How that interacts with the key sequence is stated on the Base.Create line. The controllers remove `id` before they call `update`; what the mixin's `update` does with one is described under Base.Update.
- Base.Update: forwards only the mapped columns and drops every other keyword. The source's `hasattr`/`setattr` loop (models/base.py:39-41) also writes `id`, which re-keys the row at commit, and the relationship collections (`movies` and `filmography` on an actor, `actors` and `cast` on a movie), where a `str` raises. It writes any other class attribute too. The model does not promise those outcomes. No handler reaches them: `id` is removed and the relationship names are outside the public field lists.
- Base.UpdateIgnoresNonColumns: holds for the model's `update` only. In the source a keyword naming `id`, a relationship or another class attribute is set as well (see Base.Update).
- Relationship keywords (`movies`, `cast`, `actors`, `filmography`) passed to the constructor are outside the public field lists, so no handler can forward them. `create` refuses them like any unknown keyword; `update` drops them (see Base.Update).
- The `str()` rendering of `filmography` and `cast` in the add/clear replies is left out. A reply carries the set of related keys (`Body.RowWithRelated`).
- `__repr__` of the records is left out.
- Requests.ListAll: lists rows in ascending key order. The source's `query.all()` promises no order, so only the contents are stated as the source promises them.
- The `data['relation_id'] is None` tests in both add-relation handlers (controllers/actor.py:195, controllers/movie.py:193) and the `data['id'] is None` test in `movie_add_relation` (controllers/movie.py:190) cannot fail: every form value is a `str`.
- The `DB_URL` environment check in settings/constants.py is left out.
- The test scripts other than my_tests/test_class_methods.py are left out; they need a live database.
- ActorHandlers.UpdateReportsUnknownAsMissing: unknown fields in `update_actor` and `update_movie` are reported under the text "Missing required fields". This is modelled as written.

=== FILE: actor_handlers.dfy ===
/** The actor request handlers (controllers/actor.py). Each validates the request in a fixed order and
    either answers with the first failing check or makes exactly one call into the mixin. */
module ActorHandlers {
  import opened Results
  import opened Entities
  import opened Db
  import opened Requests
  import Base

  function RecordAbsent(id: int): Failure {
    NoSuchRecord(id)
  }

  /** `date_of_birth`, when supplied, must parse under the date format. */
  predicate DateParses(f: Form, p: Parsers) {
    "date_of_birth" in f.data ==> p.toDate(f.data["date_of_birth"]).Some?
  }

  /** The request values with a supplied date of birth replaced by the date it parses to. */
  function WithDate(f: Form, p: Parsers): (r: map<string, Value>)
    requires DateParses(f, p)
    ensures r.Keys == f.data.Keys
    ensures forall k :: k in f.data && k != "date_of_birth" ==> r[k] == Text(f.data[k])
    ensures "date_of_birth" in f.data ==> r["date_of_birth"] == Day(p.toDate(f.data["date_of_birth"]).value)
  {
    if "date_of_birth" in f.data then Texts(f.data)["date_of_birth" := Day(p.toDate(f.data["date_of_birth"]).value)]
    else Texts(f.data)
  }

  // ---------------------------------------------------------------------------------------------
  // get_actor_by_id

  function GetChecks(s: Store, f: Form, p: Parsers): seq<Check> {
    IdChecks(s, ActorKind, f, p, NoIdSpecified, ActorAbsent)
  }

  function GetActorById(s: Store, f: Form, p: Parsers): (r: Exchange)
    ensures r.store == s
    ensures r.reply.Err? ==> FirstFailure(GetChecks(s, f, p)) == Some(r.reply.error)
    ensures r.reply.Ok? ==> (FirstFailure(GetChecks(s, f, p)).None? && ParsedId(f, "id", p).Some?
      && Has(s, ActorKind, ParsedId(f, "id", p).value)
      && r.reply.value == Row(Projection(s, ActorKind, ParsedId(f, "id", p).value)))
  {
    match RequireRow(s, ActorKind, f, p, NoIdSpecified, ActorAbsent)
    case Err(e) => Exchange(s, Err(e))
    case Ok(id) => Exchange(s, Ok(Row(Projection(s, ActorKind, id))))
  }

  // ---------------------------------------------------------------------------------------------
  // add_actor

  function AddChecks(f: Form, p: Parsers): seq<Check> {
    [ Check(|Missing(f, ActorKind)| == 0, MissingFields(Missing(f, ActorKind))),
      Check(|Unknown(f, ActorKind)| == 0, InvalidFields(Unknown(f, ActorKind))),
      Check(DateParses(f, p), BadDate) ]
  }

  function PlanAddActor(f: Form, p: Parsers): (r: Result<Call, Failure>)
    ensures r.Err? ==> FirstFailure(AddChecks(f, p)) == Some(r.error)
    ensures r.Ok? ==> (FirstFailure(AddChecks(f, p)).None? && DateParses(f, p)
      && r.value == CreateCall(ActorKind, WithDate(f, p)))
  {
    var c := AddChecks(f, p);
    FirstFailure3(c[0], c[1], c[2]);
    assert c == [c[0], c[1], c[2]];
    var missing := Missing(f, ActorKind);
    if |missing| > 0 then Err(MissingFields(missing))
    else
      var unknown := Unknown(f, ActorKind);
      if |unknown| > 0 then Err(InvalidFields(unknown))
      else if "date_of_birth" in f.data then
        match p.toDate(f.data["date_of_birth"])
        case None => Err(BadDate)
        case Some(d) => Ok(CreateCall(ActorKind, Texts(f.data)["date_of_birth" := Day(d)]))
      else Ok(CreateCall(ActorKind, Texts(f.data)))
  }

  function AddActor(s: Store, f: Form, p: Parsers): (r: Exchange)
    ensures r.reply.Err? ==> r.store == s
    ensures r.reply.Ok? ==> Public(ActorKind, r.reply.value)
  {
    Dispatch(s, PlanAddActor(f, p))
  }

  /** A request that fails a check is answered with the first failing check, in the order the handler
      tests them, and the store is left alone. */
  lemma AddActorRejects(s: Store, f: Form, p: Parsers)
    requires FirstFailure(AddChecks(f, p)).Some?
    ensures AddActor(s, f, p) == Exchange(s, Err(FirstFailure(AddChecks(f, p)).value))
  {
    assert PlanAddActor(f, p).Err?;
  }

  // ---------------------------------------------------------------------------------------------
  // update_actor

  function UpdateChecks(s: Store, f: Form, p: Parsers): seq<Check> {
    IdChecks(s, ActorKind, f, p, NoIdSpecified, ActorAbsent)
    + [ Check(|Unknown(f, ActorKind)| == 0, MissingFields(Unknown(f, ActorKind))),
        Check(DateParses(f, p), BadDate) ]
  }

  function PlanUpdateActor(s: Store, f: Form, p: Parsers): (r: Result<Call, Failure>)
    ensures r.Err? ==> FirstFailure(UpdateChecks(s, f, p)) == Some(r.error)
    ensures r.Ok? ==> (FirstFailure(UpdateChecks(s, f, p)).None? && DateParses(f, p)
      && ParsedId(f, "id", p).Some? && Has(s, ActorKind, ParsedId(f, "id", p).value)
      && r.value == UpdateCall(ActorKind, ParsedId(f, "id", p).value, WithDate(f, p) - {"id"}))
  {
    var c := UpdateChecks(s, f, p);
    var head := IdChecks(s, ActorKind, f, p, NoIdSpecified, ActorAbsent);
    var tail := [ Check(|Unknown(f, ActorKind)| == 0, MissingFields(Unknown(f, ActorKind))), Check(DateParses(f, p), BadDate) ];
    FirstFailureAppend(head, tail);
    FirstFailure2(tail[0], tail[1]);
    match RequireRow(s, ActorKind, f, p, NoIdSpecified, ActorAbsent)
    case Err(e) => Err(e)
    case Ok(id) =>
      var unknown := Unknown(f, ActorKind);
      if |unknown| > 0 then Err(MissingFields(unknown))
      else if "date_of_birth" in f.data then
        match p.toDate(f.data["date_of_birth"])
        case None => Err(BadDate)
        case Some(d) => Ok(UpdateCall(ActorKind, id, Texts(f.data)["date_of_birth" := Day(d)] - {"id"}))
      else Ok(UpdateCall(ActorKind, id, Texts(f.data) - {"id"}))
  }

  function UpdateActor(s: Store, f: Form, p: Parsers): (r: Exchange)
    ensures FirstFailure(UpdateChecks(s, f, p)).Some? ==> r == Exchange(s, Err(FirstFailure(UpdateChecks(s, f, p)).value))
    ensures r.reply.Err? ==> r.store == s
    ensures r.reply.Ok? ==> Public(ActorKind, r.reply.value)
  {
    Dispatch(s, PlanUpdateActor(s, f, p))
  }

  // ---------------------------------------------------------------------------------------------
  // delete_actor

  function DeleteChecks(s: Store, f: Form, p: Parsers): seq<Check> {
    IdChecks(s, ActorKind, f, p, NoIdSpecified, RecordAbsent)
  }

  function DeleteActor(s: Store, f: Form, p: Parsers): (r: Exchange)
    ensures FirstFailure(DeleteChecks(s, f, p)).Some? ==> r == Exchange(s, Err(FirstFailure(DeleteChecks(s, f, p)).value))
    ensures FirstFailure(DeleteChecks(s, f, p)).None? ==>
      && ParsedId(f, "id", p).Some? && Has(s, ActorKind, ParsedId(f, "id", p).value)
      && Base.Delete(s, ActorKind, ParsedId(f, "id", p).value).1 == 1
      && r == Exchange(Base.Delete(s, ActorKind, ParsedId(f, "id", p).value).0, Ok(Message("Record successfully deleted.")))
  {
    Dispatch(s, match RequireRow(s, ActorKind, f, p, NoIdSpecified, RecordAbsent)
      case Err(e) => Err(e)
      case Ok(id) => Ok(DeleteCall(ActorKind, id)))
  }

  // ---------------------------------------------------------------------------------------------
  // actor_add_relation

  function RelationChecks(s: Store, f: Form, p: Parsers): seq<Check> {
    var actorId := ParsedId(f, "id", p);
    var movieId := ParsedId(f, "relation_id", p);
    [ Check("id" in f.data, NoIdOf(ActorKind)),
      Check("relation_id" in f.data, NoIdOf(MovieKind)),
      Check(actorId.Some? && movieId.Some?, IdsNotIntegers) ]
    + [ Check(actorId.Some? && Has(s, ActorKind, actorId.value), ActorAbsent(actorId.GetOr(0))),
        Check(movieId.Some? && Has(s, MovieKind, movieId.value), MovieAbsent(movieId.GetOr(0))) ]
  }

  function PlanAddRelation(s: Store, f: Form, p: Parsers): (r: Result<Call, Failure>)
    ensures r.Err? ==> FirstFailure(RelationChecks(s, f, p)) == Some(r.error)
    ensures r.Ok? ==> (FirstFailure(RelationChecks(s, f, p)).None?
      && ParsedId(f, "id", p).Some? && ParsedId(f, "relation_id", p).Some?
      && r.value == AddRelationCall(ActorKind, ParsedId(f, "id", p).value, ParsedId(f, "relation_id", p).value))
  {
    var c := RelationChecks(s, f, p);
    FirstFailureAppend(c[..3], c[3..]);
    FirstFailure3(c[0], c[1], c[2]);
    FirstFailure2(c[3], c[4]);
    assert c[..3] == [c[0], c[1], c[2]] && c[3..] == [c[3], c[4]] && c == c[..3] + c[3..];
    if "id" !in f.data then Err(NoIdOf(ActorKind))
    else if "relation_id" !in f.data then Err(NoIdOf(MovieKind))
    else
      match (p.toInt(f.data["id"]), p.toInt(f.data["relation_id"]))
      case (Some(actorId), Some(movieId)) =>
        if !Has(s, ActorKind, actorId) then Err(ActorAbsent(actorId))
        else if !Has(s, MovieKind, movieId) then Err(MovieAbsent(movieId))
        else Ok(AddRelationCall(ActorKind, actorId, movieId))
      case _ => Err(IdsNotIntegers)
  }

  function ActorAddRelation(s: Store, f: Form, p: Parsers): (r: Exchange)
    ensures FirstFailure(RelationChecks(s, f, p)).Some? ==> r == Exchange(s, Err(FirstFailure(RelationChecks(s, f, p)).value))
    ensures r.reply.Err? ==> r.store == s
    ensures r.reply.Ok? ==> Public(ActorKind, r.reply.value)
  {
    Dispatch(s, PlanAddRelation(s, f, p))
  }

  // ---------------------------------------------------------------------------------------------
  // actor_clear_relations

  function ClearChecks(s: Store, f: Form, p: Parsers): seq<Check> {
    IdChecks(s, ActorKind, f, p, NoIdOf(ActorKind), ActorAbsent)
  }

  function ActorClearRelations(s: Store, f: Form, p: Parsers): (r: Exchange)
    ensures FirstFailure(ClearChecks(s, f, p)).Some? ==> r == Exchange(s, Err(FirstFailure(ClearChecks(s, f, p)).value))
    ensures FirstFailure(ClearChecks(s, f, p)).None? ==>
      && ParsedId(f, "id", p).Some? && r.reply.Ok?
      && Filmography(r.store, ParsedId(f, "id", p).value) == {}
      && r.reply.value == RowWithRelated(Projection(r.store, ActorKind, ParsedId(f, "id", p).value), {})
      && SameRows(s, r.store)
  {
    Dispatch(s, match RequireRow(s, ActorKind, f, p, NoIdOf(ActorKind), ActorAbsent)
      case Err(e) => Err(e)
      case Ok(id) => Ok(ClearRelationsCall(ActorKind, id)))
  }

  // ---------------------------------------------------------------------------------------------
  // What a successful request leaves in the store

  /** A successful `add_actor` passed every check and answers with what `create` made of the request. */
  lemma AddActorCreates(s: Store, f: Form, p: Parsers)
    requires AddActor(s, f, p).reply.Ok?
    ensures DateParses(f, p) && "name" in f.data && "gender" in f.data && "date_of_birth" in f.data
    ensures Base.Create(s, ActorKind, WithDate(f, p)).Ok?
    ensures var c := Base.Create(s, ActorKind, WithDate(f, p)).value;
      AddActor(s, f, p) == Exchange(c.store, Ok(Row(Projection(c.store, ActorKind, c.id))))
  {
    var plan := PlanAddActor(f, p);
    assert plan == Ok(CreateCall(ActorKind, WithDate(f, p)));
    PerformCreate(s, ActorKind, WithDate(f, p));
    assert |Missing(f, ActorKind)| == 0;
    assert "name" in Columns(ActorKind) && "gender" in Columns(ActorKind) && "date_of_birth" in Columns(ActorKind);
  }

  /** What `create` makes of a request holding every column, the date parsed. */
  lemma CreatedRowTakesRequest(s: Store, f: Form, p: Parsers)
    requires DateParses(f, p) && "name" in f.data && "gender" in f.data && "date_of_birth" in f.data
    requires Base.Create(s, ActorKind, WithDate(f, p)).Ok?
    ensures var c := Base.Create(s, ActorKind, WithDate(f, p)).value;
      && Attr(c.store, ActorKind, c.id, "name") == Text(f.data["name"])
      && Attr(c.store, ActorKind, c.id, "gender") == Text(f.data["gender"])
      && Attr(c.store, ActorKind, c.id, "date_of_birth") == Day(p.toDate(f.data["date_of_birth"]).value)
  {
    assert "name" in Columns(ActorKind) && "gender" in Columns(ActorKind) && "date_of_birth" in Columns(ActorKind);
  }

  /** A successful `add_actor` stores a new row holding exactly the request's name, gender and parsed
      date of birth under a key that was free, answers with that row, and keeps the schema's
      constraints. */
  lemma AddActorStoresRequest(s: Store, f: Form, p: Parsers)
    requires AddActor(s, f, p).reply.Ok?
    ensures var r := AddActor(s, f, p);
      && r.reply.value.Row? && "id" in r.reply.value.fields && r.reply.value.fields["id"].Int?
      && "name" in f.data && "gender" in f.data && "date_of_birth" in f.data
      && p.toDate(f.data["date_of_birth"]).Some?
      && !Has(s, ActorKind, NewId(r)) && Has(r.store, ActorKind, NewId(r))
      && r.reply.value == Row(Projection(r.store, ActorKind, NewId(r)))
      && Attr(r.store, ActorKind, NewId(r), "name") == Text(f.data["name"])
      && Attr(r.store, ActorKind, NewId(r), "gender") == Text(f.data["gender"])
      && Attr(r.store, ActorKind, NewId(r), "date_of_birth") == Day(p.toDate(f.data["date_of_birth"]).value)
      && SameOutsideRow(s, r.store, ActorKind, NewId(r))
      && (Valid(s) ==> Valid(r.store))
  {
    AddActorCreates(s, f, p);
    var fields := WithDate(f, p);
    var c := Base.Create(s, ActorKind, fields).value;
    assert NewId(AddActor(s, f, p)) == c.id;
    CreatedRowTakesRequest(s, f, p);
    if Valid(s) {
      Base.CreatePreservesValid(s, ActorKind, fields);
    }
  }

  /** `get_actor_by_id` with the decimal text of an existing key answers with that row's projection. */
  lemma GetFinds(s: Store, id: int, text: string, p: Parsers)
    requires Has(s, ActorKind, id) && p.toInt(text) == Some(id)
    ensures GetActorById(s, SingleField("id", text), p).reply == Ok(Row(Projection(s, ActorKind, id)))
  {
    var g := SingleField("id", text);
    assert ParsedId(g, "id", p) == Some(id);
    var checks := GetChecks(s, g, p);
    assert forall i :: 0 <= i < |checks| ==> checks[i].passes;
  }

  /** Adding an actor and then asking for it by the key the answer reports gives the same projection. */
  lemma AddThenGet(s: Store, f: Form, p: Parsers, text: string)
    requires AddActor(s, f, p).reply.Ok?
    requires AddActor(s, f, p).reply.value.Row?
    requires "id" in AddActor(s, f, p).reply.value.fields && AddActor(s, f, p).reply.value.fields["id"].Int?
    requires p.toInt(text) == Some(NewId(AddActor(s, f, p)))
    ensures GetActorById(AddActor(s, f, p).store, SingleField("id", text), p).reply == AddActor(s, f, p).reply
  {
    AddActorCreates(s, f, p);
    var c := Base.Create(s, ActorKind, WithDate(f, p)).value;
    var r := AddActor(s, f, p);
    assert r.store == c.store && r.reply == Ok(Row(Projection(c.store, ActorKind, c.id)));
    assert NewId(r) == c.id;
    GetFinds(c.store, c.id, text, p);
  }

  /** A successful `update_actor` passed every check and answers with what `update` made of the row. */
  lemma UpdateActorUpdates(s: Store, f: Form, p: Parsers)
    requires UpdateActor(s, f, p).reply.Ok?
    ensures DateParses(f, p) && ParsedId(f, "id", p).Some? && Has(s, ActorKind, ParsedId(f, "id", p).value)
    ensures Base.Update(s, ActorKind, ParsedId(f, "id", p).value, WithDate(f, p) - {"id"}).Ok?
    ensures var t := Base.Update(s, ActorKind, ParsedId(f, "id", p).value, WithDate(f, p) - {"id"}).value;
      UpdateActor(s, f, p) == Exchange(t, Ok(Row(Projection(t, ActorKind, ParsedId(f, "id", p).value))))
  {
    var id := ParsedId(f, "id", p).value;
    assert PlanUpdateActor(s, f, p) == Ok(UpdateCall(ActorKind, id, WithDate(f, p) - {"id"}));
    PerformUpdate(s, ActorKind, id, WithDate(f, p) - {"id"});
  }

  /** What `update` makes of row `id` given the request's values with the date parsed. */
  lemma RowTakesRequest(s: Store, id: int, f: Form, p: Parsers)
    requires DateParses(f, p)
    requires Base.Update(s, ActorKind, id, WithDate(f, p) - {"id"}).Ok?
    ensures var t := Base.Update(s, ActorKind, id, WithDate(f, p) - {"id"}).value;
      && (forall c :: c in Columns(ActorKind) && c !in f.data ==> Attr(t, ActorKind, id, c) == Attr(s, ActorKind, id, c))
      && (forall c :: c in Columns(ActorKind) && c in f.data && c != "date_of_birth" ==> Attr(t, ActorKind, id, c) == Text(f.data[c]))
      && ("date_of_birth" in f.data ==> Attr(t, ActorKind, id, "date_of_birth") == Day(p.toDate(f.data["date_of_birth"]).value))
  {
    RowKeepsAbsent(s, id, f, p);
    RowTakesTexts(s, id, f, p);
    RowTakesDate(s, id, f, p);
  }

  lemma RowKeepsAbsent(s: Store, id: int, f: Form, p: Parsers)
    requires DateParses(f, p)
    requires Base.Update(s, ActorKind, id, WithDate(f, p) - {"id"}).Ok?
    ensures var t := Base.Update(s, ActorKind, id, WithDate(f, p) - {"id"}).value;
      forall c :: c in Columns(ActorKind) && c !in f.data ==> Attr(t, ActorKind, id, c) == Attr(s, ActorKind, id, c)
  {
    var fields := WithDate(f, p) - {"id"};
    var t := Base.Update(s, ActorKind, id, fields).value;
    forall c | c in Columns(ActorKind) && c !in f.data
      ensures Attr(t, ActorKind, id, c) == Attr(s, ActorKind, id, c)
    {
      assert c !in fields;
    }
  }

  lemma RowTakesTexts(s: Store, id: int, f: Form, p: Parsers)
    requires DateParses(f, p)
    requires Base.Update(s, ActorKind, id, WithDate(f, p) - {"id"}).Ok?
    ensures var t := Base.Update(s, ActorKind, id, WithDate(f, p) - {"id"}).value;
      forall c :: c in Columns(ActorKind) && c in f.data && c != "date_of_birth" ==> Attr(t, ActorKind, id, c) == Text(f.data[c])
  {
    var fields := WithDate(f, p) - {"id"};
    var t := Base.Update(s, ActorKind, id, fields).value;
    forall c | c in Columns(ActorKind) && c in f.data && c != "date_of_birth"
      ensures Attr(t, ActorKind, id, c) == Text(f.data[c])
    {
      assert c in fields && fields[c] == Text(f.data[c]);
      assert ColumnTypeOf(ActorKind, c).Varchar?;
    }
  }

  lemma RowTakesDate(s: Store, id: int, f: Form, p: Parsers)
    requires DateParses(f, p)
    requires Base.Update(s, ActorKind, id, WithDate(f, p) - {"id"}).Ok?
    ensures "date_of_birth" in f.data ==>
      Attr(Base.Update(s, ActorKind, id, WithDate(f, p) - {"id"}).value, ActorKind, id, "date_of_birth")
        == Day(p.toDate(f.data["date_of_birth"]).value)
  {
    if "date_of_birth" in f.data {
      assert "date_of_birth" in WithDate(f, p) - {"id"};
    }
  }

  /** A successful `update_actor` writes every supplied column (the date parsed) into the row the id
      names, keeps the others, touches no other row or association, and keeps the schema's
      constraints. */
  lemma UpdateActorWritesRequest(s: Store, f: Form, p: Parsers)
    requires UpdateActor(s, f, p).reply.Ok?
    ensures ParsedId(f, "id", p).Some?
    ensures var r := UpdateActor(s, f, p); var id := ParsedId(f, "id", p).value;
      && Has(s, ActorKind, id) && Has(r.store, ActorKind, id)
      && SameOutsideRow(s, r.store, ActorKind, id)
      && r.reply.value == Row(Projection(r.store, ActorKind, id))
      && (forall c :: c in Columns(ActorKind) && c !in f.data ==> Attr(r.store, ActorKind, id, c) == Attr(s, ActorKind, id, c))
      && (forall c :: c in Columns(ActorKind) && c in f.data && c != "date_of_birth" ==> Attr(r.store, ActorKind, id, c) == Text(f.data[c]))
      && ("date_of_birth" in f.data ==>
            (p.toDate(f.data["date_of_birth"]).Some?
             && Attr(r.store, ActorKind, id, "date_of_birth") == Day(p.toDate(f.data["date_of_birth"]).value)))
      && (Valid(s) ==> Valid(r.store))
  {
    UpdateActorUpdates(s, f, p);
    var id := ParsedId(f, "id", p).value;
    var fields := WithDate(f, p) - {"id"};
    RowTakesRequest(s, id, f, p);
    if Valid(s) {
      Base.UpdatePreservesValid(s, ActorKind, id, fields);
    }
  }

  /** `update_actor` reports unknown fields, once the id checks pass, under the text "Missing required
      fields". */
  lemma UpdateReportsUnknownAsMissing(s: Store, f: Form, p: Parsers)
    requires ParsedId(f, "id", p).Some? && Has(s, ActorKind, ParsedId(f, "id", p).value)
    requires |Unknown(f, ActorKind)| > 0
    ensures UpdateActor(s, f, p) == Exchange(s, Err(MissingFields(Unknown(f, ActorKind))))
    ensures Describe(UpdateActor(s, f, p).reply.error).value[..|"Missing required fields: "|] == "Missing required fields: "
  {
    var id := ParsedId(f, "id", p).value;
    assert RequireRow(s, ActorKind, f, p, NoIdSpecified, ActorAbsent) == Ok(id);
    assert PlanUpdateActor(s, f, p) == Err(MissingFields(Unknown(f, ActorKind)));
    MissingFieldsText(Unknown(f, ActorKind));
  }

  /** A successful `actor_add_relation` puts the movie in the actor's filmography and the actor in the
      movie's cast, adds that one association and nothing else, answers with the actor and its whole
      filmography, and keeps the schema's constraints. */
  lemma AddRelationLinks(s: Store, f: Form, p: Parsers)
    requires ActorAddRelation(s, f, p).reply.Ok?
    ensures ParsedId(f, "id", p).Some? && ParsedId(f, "relation_id", p).Some?
    ensures var r := ActorAddRelation(s, f, p);
      var actorId := ParsedId(f, "id", p).value; var movieId := ParsedId(f, "relation_id", p).value;
      && movieId in Filmography(r.store, actorId) && actorId in Cast(r.store, movieId)
      && SameRows(s, r.store) && r.store.links == s.links + {(actorId, movieId)}
      && r.reply.value == RowWithRelated(Projection(r.store, ActorKind, actorId), Filmography(r.store, actorId))
      && (Valid(s) ==> Valid(r.store))
  {
    var actorId := ParsedId(f, "id", p).value;
    var movieId := ParsedId(f, "relation_id", p).value;
    var r := ActorAddRelation(s, f, p);
    ViewsAgree(r.store, actorId, movieId);
    if Valid(s) {
      Base.RelationChangesPreserveValid(s, ActorKind, actorId, movieId);
    }
  }

  /** A successful `actor_clear_relations` leaves every other actor's associations as they were and
      keeps the schema's constraints. */
  lemma ClearLeavesOthers(s: Store, f: Form, p: Parsers)
    requires ActorClearRelations(s, f, p).reply.Ok?
    ensures ParsedId(f, "id", p).Some?
    ensures var r := ActorClearRelations(s, f, p); var id := ParsedId(f, "id", p).value;
      && (forall l: Link :: l.0 != id ==> (l in r.store.links <==> l in s.links))
      && (forall other :: other != id ==> Filmography(r.store, other) == Filmography(s, other))
      && (Valid(s) ==> Valid(r.store))
  {
    var id := ParsedId(f, "id", p).value;
    var r := ActorClearRelations(s, f, p);
    forall other | other != id
      ensures Filmography(r.store, other) == Filmography(s, other)
    {
      forall m ensures m in Filmography(r.store, other) <==> m in Filmography(s, other) {
        ViewsAgree(r.store, other, m);
        ViewsAgree(s, other, m);
      }
    }
    if Valid(s) {
      Base.RelationChangesPreserveValid(s, ActorKind, id, 0);
    }
  }
}

=== FILE: base.dfy ===
/** The generic mixin of models/base.py: `create`, `update`, `delete`, `add_relation`,
    `remove_relation` and `clear_relations`, each one atomic transformation of the store that either
    commits or changes nothing. The `cls` argument of the class methods is the `kind` argument here. */
module Base {
  import opened Results
  import opened Entities
  import opened Db
  import Seqs
  import Numerals

  /** Why a mixin call fails. `NotFound` is the mixin's own `ValueError`; the others are raised by the
      declarative constructor or by the storage engine when the call commits. */
  datatype StoreError =
    | NotFound(id: int)
    | InvalidKeywords(keys: set<string>)
    | BadValues(columns: set<string>)
    | DuplicateKey(id: int)
    | NullName
    | DuplicateName
    | MissingReference(id: int)
    | DuplicateLink

  /** The text of the mixin's own error, `None` for the errors whose text the engine writes. */
  function ErrorText(e: StoreError): (r: Option<string>)
    ensures r.Some? <==> e.NotFound?
  {
    match e
    case NotFound(id) => Some("ID " + Seqs.IntToString(id) + " not found.")
    case _ => None
  }

  /** The not-found text names the missing key in a form that reads back as that key. */
  lemma NotFoundTextNamesKey(id: int)
    ensures ErrorText(NotFound(id)).Some?
    ensures Numerals.NamesNumber(ErrorText(NotFound(id)).value, "ID ", " not found.", id)
  {
    Numerals.FramedNumber("ID ", id, " not found.");
  }

  /** A committed `create`: the new store and the key of the new row. */
  datatype Created = Created(store: Store, id: int)

  /** Keyword arguments the declarative constructor refuses: neither a column nor the key. */
  function UnknownKeywords(kind: Kind, fields: map<string, Value>): set<string> {
    set k | k in fields && k != "id" && k !in Columns(kind)
  }

  /** Whether an `id` argument chooses the key instead of the sequence. */
  predicate ExplicitKey(fields: map<string, Value>) {
    "id" in fields && fields["id"] != Null
  }

  /** The supplied columns (and key) whose values the engine refuses to store. */
  function Unstorable(kind: Kind, fields: map<string, Value>): set<string> {
    (set c | c in fields && c in Columns(kind) && Coerce(ColumnTypeOf(kind, c), fields[c]).None?)
    + (if ExplicitKey(fields) && Coerce(Integer, fields["id"]).None? then {"id"} else {})
  }

  /** The supplied column values as the engine stores them; other keys are dropped. */
  function Stored(kind: Kind, fields: map<string, Value>): (r: map<string, Value>)
    requires Unstorable(kind, fields) == {}
    ensures forall c :: c in r <==> c in fields && c in Columns(kind)
    ensures forall c :: c in r ==> Some(r[c]) == Coerce(ColumnTypeOf(kind, c), fields[c])
  {
    assert forall c :: c in fields && c in Columns(kind) ==> Coerce(ColumnTypeOf(kind, c), fields[c]).Some? by {
      forall c | c in fields && c in Columns(kind)
        ensures Coerce(ColumnTypeOf(kind, c), fields[c]).Some?
      {
        assert c !in Unstorable(kind, fields);
      }
    }
    map c | c in fields && c in Columns(kind) :: Coerce(ColumnTypeOf(kind, c), fields[c]).value
  }

  /** The next value of the key sequence of `kind`. */
  function NextId(s: Store, kind: Kind): int {
    match kind
    case ActorKind => s.nextActorId
    case MovieKind => s.nextMovieId
  }

  /** The key of a new row: the supplied `id` as the engine reads it, else the next sequence value. */
  function NewKey(s: Store, kind: Kind, fields: map<string, Value>): int
    requires Unstorable(kind, fields) == {}
  {
    if ExplicitKey(fields) then
      match Coerce(Integer, fields["id"])
      case Some(Int(n)) => n
      case _ => NextId(s, kind)
    else NextId(s, kind)
  }

  /** Whether some row of `kind` other than `id` already carries `name`. */
  predicate NameTaken(s: Store, kind: Kind, name: Value, id: int) {
    exists i | i in Ids(s, kind) :: i != id && Attr(s, kind, i, "name") == name
  }

  /** The store with row `id` of `kind` set to `row` with `values` assigned over it. */
  function Put(s: Store, kind: Kind, id: int, values: map<string, Value>, isNew: bool): (t: Store)
    requires !isNew ==> Has(s, kind, id)
    ensures Has(t, kind, id) && SameOutsideRow(s, t, kind, id)
    ensures forall c :: c in Columns(kind) ==>
      Attr(t, kind, id, c) == if c in values then values[c] else if isNew then Null else Attr(s, kind, id, c)
  {
    match kind
    case ActorKind =>
      var row := if isNew then BlankActor else s.actors[id];
      s.(actors := s.actors[id := row.Assign(values)])
    case MovieKind =>
      var row := if isNew then BlankMovie else s.movies[id];
      s.(movies := s.movies[id := row.Assign(values)])
  }

  /** `Model.create(**fields)`: build a row from exactly the supplied fields and commit it. */
  function Create(s: Store, kind: Kind, fields: map<string, Value>): (r: Result<Created, StoreError>)
    ensures UnknownKeywords(kind, fields) != {} ==> r == Err(InvalidKeywords(UnknownKeywords(kind, fields)))
    ensures r.Ok? ==> fields.Keys <= Columns(kind) + {"id"}
    ensures r.Ok? ==> !Has(s, kind, r.value.id) && Has(r.value.store, kind, r.value.id)
    ensures r.Ok? ==> SameOutsideRow(s, r.value.store, kind, r.value.id)
    ensures r.Ok? ==> forall c :: c in Columns(kind) ==>
      Some(Attr(r.value.store, kind, r.value.id, c))
        == if c in fields then Coerce(ColumnTypeOf(kind, c), fields[c]) else Some(Null)
    ensures r.Ok? ==> Attr(r.value.store, kind, r.value.id, "name") != Null
    ensures r.Ok? ==> !NameTaken(s, kind, Attr(r.value.store, kind, r.value.id, "name"), r.value.id)
    ensures r.Ok? && ExplicitKey(fields) ==> Coerce(Integer, fields["id"]) == Some(Int(r.value.id))
    ensures r.Ok? && !ExplicitKey(fields) ==> r.value.id == NextId(s, kind) && NextId(r.value.store, kind) == r.value.id + 1
    ensures r.Ok? && ExplicitKey(fields) ==> NextId(r.value.store, kind) == NextId(s, kind)
  {
    var unknown := UnknownKeywords(kind, fields);
    if unknown != {} then Err(InvalidKeywords(unknown))
    else
      var bad := Unstorable(kind, fields);
      if bad != {} then Err(BadValues(bad))
      else
        var values := Stored(kind, fields);
        var id := NewKey(s, kind, fields);
        var name := if "name" in values then values["name"] else Null;
        if Has(s, kind, id) then Err(DuplicateKey(id))
        else if name == Null then Err(NullName)
        else if NameTaken(s, kind, name, id) then Err(DuplicateName)
        else
          var t := Put(s, kind, id, values, true);
          var advanced := match kind
            case ActorKind => if ExplicitKey(fields) then t else t.(nextActorId := t.nextActorId + 1)
            case MovieKind => if ExplicitKey(fields) then t else t.(nextMovieId := t.nextMovieId + 1);
          Ok(Created(advanced, id))
  }

  /** `Model.update(row_id, **fields)`: overwrite the supplied columns of an existing row. */
  function Update(s: Store, kind: Kind, id: int, fields: map<string, Value>): (r: Result<Store, StoreError>)
    ensures !Has(s, kind, id) ==> r == Err(NotFound(id))
    ensures r.Ok? ==> Has(r.value, kind, id) && SameOutsideRow(s, r.value, kind, id)
    ensures r.Ok? ==> NextId(r.value, kind) == NextId(s, kind)
    ensures r.Ok? ==> Attr(r.value, kind, id, "name") != Null
    ensures r.Ok? ==> !NameTaken(s, kind, Attr(r.value, kind, id, "name"), id)
    ensures r.Ok? ==> forall c :: c in Columns(kind) ==>
      Some(Attr(r.value, kind, id, c))
        == if c in fields then Coerce(ColumnTypeOf(kind, c), fields[c]) else Some(Attr(s, kind, id, c))
  {
    if !Has(s, kind, id) then Err(NotFound(id))
    else
      var bad := Unstorable(kind, fields - {"id"});
      if bad != {} then Err(BadValues(bad))
      else
        var t := Put(s, kind, id, Stored(kind, fields - {"id"}), false);
        var name := Attr(t, kind, id, "name");
        if name == Null then Err(NullName)
        else if NameTaken(s, kind, name, id) then Err(DuplicateName)
        else Ok(t)
  }

  /** `Model.delete(row_id)`: remove the row if it exists, and with it the association rows that
      mention it; report 1 if it existed and 0 otherwise. Clearing the associations is a choice of
      this model: the source leaves it to the ORM and the engine. */
  function Delete(s: Store, kind: Kind, id: int): (r: (Store, nat))
    ensures r.1 == if Has(s, kind, id) then 1 else 0
    ensures !Has(r.0, kind, id)
    ensures Has(s, kind, id) ==> Related(r.0, kind, id) == {}
    ensures SameOutsideRow(s, r.0.(links := s.links), kind, id) && NextId(r.0, kind) == NextId(s, kind)
    ensures Has(s, kind, id) ==> forall l :: l in r.0.links <==> l in s.links && Owner(kind, l) != id
    ensures r.1 == 0 ==> r.0 == s
  {
    if !Has(s, kind, id) then (s, 0)
    else
      var kept := set l | l in s.links && Owner(kind, l) != id;
      match kind
      case ActorKind => (s.(actors := s.actors - {id}, links := kept), 1)
      case MovieKind => (s.(movies := s.movies - {id}, links := kept), 1)
  }

  /** `Model.add_relation(row_id, rel_obj)`: add `rel` to the related collection of row `id`. */
  function AddRelation(s: Store, kind: Kind, id: int, rel: int): (r: Result<Store, StoreError>)
    ensures !Has(s, kind, id) ==> r == Err(NotFound(id))
    ensures Has(s, kind, id) && Has(s, Other(kind), rel) && LinkOf(kind, id, rel) !in s.links ==> r.Ok?
    ensures r.Ok? ==> SameRows(s, r.value) && r.value.links == s.links + {LinkOf(kind, id, rel)}
    ensures r.Ok? ==> rel in Related(r.value, kind, id)
  {
    if !Has(s, kind, id) then Err(NotFound(id))
    else if !Has(s, Other(kind), rel) then Err(MissingReference(rel))
    else if LinkOf(kind, id, rel) in s.links then Err(DuplicateLink)
    else
      var t := s.(links := s.links + {LinkOf(kind, id, rel)});
      assert LinkOf(kind, id, rel) in t.links;
      Ok(t)
  }

  /** `Model.remove_relation(row_id, rel_obj)`: remove `rel` from the related collection of row `id`
      if it is there; otherwise nothing changes and nothing fails. */
  function RemoveRelation(s: Store, kind: Kind, id: int, rel: int): (r: Result<Store, StoreError>)
    ensures !Has(s, kind, id) ==> r == Err(NotFound(id))
    ensures Has(s, kind, id) ==> r.Ok?
    ensures r.Ok? ==> SameRows(s, r.value) && r.value.links == s.links - {LinkOf(kind, id, rel)}
    ensures r.Ok? ==> rel !in Related(r.value, kind, id)
    ensures r.Ok? && rel !in Related(s, kind, id) ==> r.value == s
  {
    if !Has(s, kind, id) then Err(NotFound(id))
    else if LinkOf(kind, id, rel) in s.links then Ok(s.(links := s.links - {LinkOf(kind, id, rel)}))
    else Ok(s)
  }

  /** `Model.clear_relations(row_id)`: empty the related collection of row `id`. */
  function ClearRelations(s: Store, kind: Kind, id: int): (r: Result<Store, StoreError>)
    ensures !Has(s, kind, id) ==> r == Err(NotFound(id))
    ensures Has(s, kind, id) ==> r.Ok?
    ensures r.Ok? ==> SameRows(s, r.value) && Related(r.value, kind, id) == {}
    ensures r.Ok? ==> forall l :: Owner(kind, l) != id ==> (l in r.value.links <==> l in s.links)
    ensures r.Ok? ==> r.value.links <= s.links
  {
    if !Has(s, kind, id) then Err(NotFound(id))
    else Ok(s.(links := set l | l in s.links && Owner(kind, l) != id))
  }

  /** The links left once every link between row `id` of `kind` and a row listed in `done` is gone. */
  function Without(links: set<Link>, kind: Kind, id: int, done: seq<int>): set<Link> {
    set l | l in links && !(Owner(kind, l) == id && Partner(kind, l) in done)
  }

  lemma WithoutStep(links: set<Link>, kind: Kind, id: int, done: seq<int>, x: int)
    ensures Without(links, kind, id, done + [x]) == Without(links, kind, id, done) - {LinkOf(kind, id, x)}
  {
    var l' := LinkOf(kind, id, x);
    forall l | l in links
      ensures l in Without(links, kind, id, done + [x]) <==> l in Without(links, kind, id, done) - {l'}
    {
      if Owner(kind, l) == id && Partner(kind, l) == x {
        match kind
        case ActorKind => assert l == l';
        case MovieKind => assert l == l';
      }
    }
  }

  lemma WithoutAll(s: Store, kind: Kind, id: int, done: seq<int>)
    requires forall x :: x in Related(s, kind, id) ==> x in done
    ensures Without(s.links, kind, id, done) == set l | l in s.links && Owner(kind, l) != id
  {
    forall l | l in s.links && Owner(kind, l) == id
      ensures Partner(kind, l) in done
    {
      assert Partner(kind, l) in Related(s, kind, id);
    }
  }

  /** The loop of `clear_relations`: remove the members of a snapshot of the related collection one at
      a time. The snapshot is the query's list, in whatever order the query returns it; every order
      ends where the one-step definition does. */
  method ClearRelationsOneByOne(s: Store, kind: Kind, id: int, pending: seq<int>) returns (r: Result<Store, StoreError>)
    requires forall x :: x in pending <==> x in Related(s, kind, id)
    ensures r == ClearRelations(s, kind, id)
  {
    if !Has(s, kind, id) {
      return Err(NotFound(id));
    }
    var t := s;
    var i := 0;
    while i < |pending|
      invariant 0 <= i <= |pending|
      invariant t == s.(links := Without(s.links, kind, id, pending[..i]))
    {
      RemoveNext(s, kind, id, pending, i);
      t := RemoveRelation(t, kind, id, pending[i]).value;
      i := i + 1;
    }
    ClearedAll(s, kind, id, pending);
    return Ok(t);
  }

  /** One turn of the loop: removing the next snapshot member extends the removed prefix by one. */
  lemma RemoveNext(s: Store, kind: Kind, id: int, pending: seq<int>, i: nat)
    requires Has(s, kind, id) && i < |pending|
    ensures RemoveRelation(s.(links := Without(s.links, kind, id, pending[..i])), kind, id, pending[i])
      == Ok(s.(links := Without(s.links, kind, id, pending[..i + 1])))
  {
    WithoutStep(s.links, kind, id, pending[..i], pending[i]);
    assert pending[..i + 1] == pending[..i] + [pending[i]];
  }

  /** Once the whole snapshot is removed, the store is the one-step result. */
  lemma ClearedAll(s: Store, kind: Kind, id: int, pending: seq<int>)
    requires Has(s, kind, id) && forall x :: x in Related(s, kind, id) ==> x in pending
    ensures ClearRelations(s, kind, id) == Ok(s.(links := Without(s.links, kind, id, pending[..|pending|])))
  {
    assert pending[..|pending|] == pending;
    WithoutAll(s, kind, id, pending);
  }

  /** Keys that are not columns make no difference to `update`. */
  lemma UpdateIgnoresNonColumns(s: Store, kind: Kind, id: int, fields: map<string, Value>)
    ensures Update(s, kind, id, fields) == Update(s, kind, id, map c | c in fields && c in Columns(kind) :: fields[c])
  {
    var only := map c | c in fields && c in Columns(kind) :: fields[c];
    SameColumnsSameStorage(kind, fields - {"id"}, only - {"id"});
  }

  /** Two keyword sets without a key that agree on every column are stored alike. */
  lemma SameColumnsSameStorage(kind: Kind, a: map<string, Value>, b: map<string, Value>)
    requires "id" !in a && "id" !in b
    requires forall c :: c in Columns(kind) ==> (c in a <==> c in b)
    requires forall c :: c in Columns(kind) && c in a ==> a[c] == b[c]
    ensures Unstorable(kind, a) == Unstorable(kind, b)
    ensures Unstorable(kind, a) == {} ==> Stored(kind, a) == Stored(kind, b)
  {
  }

  /** `create` commits whenever the constructor accepts the keywords, the engine can store every
      value, the sequence's next key is free and the name is present and not taken; the new row gets
      that key. */
  lemma CreateCommits(s: Store, kind: Kind, fields: map<string, Value>)
    requires UnknownKeywords(kind, fields) == {} && Unstorable(kind, fields) == {}
    requires !ExplicitKey(fields) && !Has(s, kind, NextId(s, kind))
    requires "name" in fields && fields["name"] != Null && !NameTaken(s, kind, fields["name"], NextId(s, kind))
    ensures Create(s, kind, fields).Ok? && Create(s, kind, fields).value.id == NextId(s, kind)
  {
    assert "name" in Columns(kind);
    assert "name" in Stored(kind, fields);
  }

  /** `update` of an existing row commits whenever the engine can store every supplied value and the
      name the row ends up with is present and held by no other row. */
  lemma UpdateCommits(s: Store, kind: Kind, id: int, fields: map<string, Value>)
    requires Has(s, kind, id) && Unstorable(kind, fields - {"id"}) == {}
    requires var name := if "name" in fields then fields["name"] else Attr(s, kind, id, "name");
      name != Null && !NameTaken(s, kind, name, id)
    ensures Update(s, kind, id, fields).Ok?
  {
    assert "name" in Columns(kind);
    if "name" in fields {
      assert "name" in Stored(kind, fields - {"id"});
    }
  }

  /** Removing a link that `add_relation` has just added restores the store. */
  lemma AddThenRemove(s: Store, kind: Kind, id: int, rel: int)
    requires LinkOf(kind, id, rel) !in s.links
    requires AddRelation(s, kind, id, rel).Ok?
    ensures RemoveRelation(AddRelation(s, kind, id, rel).value, kind, id, rel) == Ok(s)
  {
    var t := AddRelation(s, kind, id, rel).value;
    assert t.links - {LinkOf(kind, id, rel)} == s.links;
  }

  /** A committed `create` keeps every declared constraint. */
  lemma CreatePreservesValid(s: Store, kind: Kind, fields: map<string, Value>)
    requires Valid(s)
    requires Create(s, kind, fields).Ok?
    ensures Valid(Create(s, kind, fields).value.store)
  {
    var c := Create(s, kind, fields).value;
    NewRowValid(c.store, kind, c.id, fields, true, s);
    NameNotTaken(s, c.store, kind, c.id);
    ChangedRowValid(s, c.store, kind, c.id);
  }

  /** A committed `update` keeps every declared constraint. */
  lemma UpdatePreservesValid(s: Store, kind: Kind, id: int, fields: map<string, Value>)
    requires Valid(s)
    requires Update(s, kind, id, fields).Ok?
    ensures Valid(Update(s, kind, id, fields).value)
  {
    var t := Update(s, kind, id, fields).value;
    NewRowValid(t, kind, id, fields, false, s);
    NameNotTaken(s, t, kind, id);
    ChangedRowValid(s, t, kind, id);
  }

  /** Every column of a row written from `fields` holds a value of its declared type. */
  lemma NewRowValid(t: Store, kind: Kind, id: int, fields: map<string, Value>, isNew: bool, s: Store)
    requires Valid(s)
    requires Attr(t, kind, id, "name") != Null
    requires forall c :: c in Columns(kind) ==>
      Some(Attr(t, kind, id, c))
        == if c in fields then Coerce(ColumnTypeOf(kind, c), fields[c])
           else if isNew then Some(Null) else Some(Attr(s, kind, id, c))
    requires !isNew ==> Has(s, kind, id)
    ensures RowValid(t, kind, id)
  {
    forall c | c in Columns(kind)
      ensures Conforms(ColumnTypeOf(kind, c), Attr(t, kind, id, c))
    {
      if c !in fields && !isNew {
        assert RowValid(s, kind, id);
      }
    }
  }

  lemma NameNotTaken(s: Store, t: Store, kind: Kind, id: int)
    requires SameOutsideRow(s, t, kind, id)
    requires !NameTaken(s, kind, Attr(t, kind, id, "name"), id)
    ensures forall i :: i != id && Has(t, kind, i) ==> Attr(t, kind, i, "name") != Attr(t, kind, id, "name")
  {
    OutsideRow(s, t, kind, id);
    forall i | i != id && Has(t, kind, i)
      ensures Attr(t, kind, i, "name") != Attr(t, kind, id, "name")
    {
      assert i in Ids(s, kind);
    }
  }

  /** Deleting any row keeps every declared constraint: the associations that would dangle go with it. */
  lemma DeletePreservesValid(s: Store, kind: Kind, id: int)
    requires Valid(s)
    ensures Valid(Delete(s, kind, id).0)
  {
    var t := Delete(s, kind, id).0;
    // Apart from the association table, `t` differs from `s` only in row `id`.
    OutsideRow(s, t.(links := s.links), kind, id);
    SameTableValid(s, t, Other(kind));
    forall i | Has(t, kind, i)
      ensures RowValid(t, kind, i)
    {
      assert RowValid(s, kind, i);
    }
    forall i, j | Has(t, kind, i) && Has(t, kind, j) && Attr(t, kind, i, "name") == Attr(t, kind, j, "name")
      ensures i == j
    {
      assert Has(s, kind, i) && Has(s, kind, j);
    }
    forall l | l in t.links
      ensures l.0 in t.actors && l.1 in t.movies
    {
      assert l in s.links && Owner(kind, l) != id;
    }
    // Split on the kind so that `TableValid` of each table unfolds against its own map.
    match kind
    case ActorKind =>
    case MovieKind =>
  }

  /** `add_relation`, `remove_relation` and `clear_relations` keep every declared constraint. */
  lemma RelationChangesPreserveValid(s: Store, kind: Kind, id: int, rel: int)
    requires Valid(s)
    ensures AddRelation(s, kind, id, rel).Ok? ==> Valid(AddRelation(s, kind, id, rel).value)
    ensures RemoveRelation(s, kind, id, rel).Ok? ==> Valid(RemoveRelation(s, kind, id, rel).value)
    ensures ClearRelations(s, kind, id).Ok? ==> Valid(ClearRelations(s, kind, id).value)
  {
    if AddRelation(s, kind, id, rel).Ok? {
      LinksChangeValid(s, AddRelation(s, kind, id, rel).value);
    }
    if RemoveRelation(s, kind, id, rel).Ok? {
      LinksChangeValid(s, RemoveRelation(s, kind, id, rel).value);
    }
    if ClearRelations(s, kind, id).Ok? {
      LinksChangeValid(s, ClearRelations(s, kind, id).value);
    }
  }

  lemma LinksChangeValid(s: Store, t: Store)
    requires Valid(s) && SameRows(s, t) && LinksResolve(t)
    ensures Valid(t)
  {
    SameTableValid(s, t, ActorKind);
    SameTableValid(s, t, MovieKind);
  }
}

=== FILE: db.dfy ===
/** The persisted state: the `actors` and `movies` tables, the `association` table
    (models/relations.py) and the key sequences of the two tables. */
module Db {
  import opened Entities

  /** One row of the association table: (actor_id, movie_id). Both parts are integers, so neither can
      be absent, and a set holds each pair at most once, as the composite primary key demands. */
  type Link = (int, int)

  datatype Store = Store(
    actors: map<int, Actor>,
    movies: map<int, Movie>,
    links: set<Link>,
    nextActorId: int,
    nextMovieId: int)

  /** A freshly created schema: no rows, both sequences starting at 1. */
  const Empty := Store(map[], map[], {}, 1, 1)

  predicate Has(s: Store, kind: Kind, id: int) {
    match kind
    case ActorKind => id in s.actors
    case MovieKind => id in s.movies
  }

  /** The keys of table `kind`. */
  function Ids(s: Store, kind: Kind): (r: set<int>)
    ensures forall id :: id in r <==> Has(s, kind, id)
  {
    match kind
    case ActorKind => s.actors.Keys
    case MovieKind => s.movies.Keys
  }

  /** The value of one column of one row, `None` when there is no such row or column. */
  function Attr(s: Store, kind: Kind, id: int, column: string): Value {
    match kind
    case ActorKind => if id in s.actors then s.actors[id].Attr(column) else Null
    case MovieKind => if id in s.movies then s.movies[id].Attr(column) else Null
  }

  /** The kind at the other end of the many-to-many relationship. */
  function Other(kind: Kind): Kind {
    match kind
    case ActorKind => MovieKind
    case MovieKind => ActorKind
  }

  /** The id of a link's row of type `kind`. */
  function Owner(kind: Kind, l: Link): int {
    match kind
    case ActorKind => l.0
    case MovieKind => l.1
  }

  /** The id of a link's row of the other type. */
  function Partner(kind: Kind, l: Link): int {
    match kind
    case ActorKind => l.1
    case MovieKind => l.0
  }

  /** The link between row `id` of type `kind` and row `rel` of the other type. */
  function LinkOf(kind: Kind, id: int, rel: int): (l: Link)
    ensures Owner(kind, l) == id && Partner(kind, l) == rel
  {
    match kind
    case ActorKind => (id, rel)
    case MovieKind => (rel, id)
  }

  /** The related collection of a row: `actor.movies` (and its alias `actor.filmography`) for an
      actor, `movie.actors` (and its alias `movie.cast`) for a movie. Every one of them is read off
      the single association table. */
  function Related(s: Store, kind: Kind, id: int): set<int> {
    set l | l in s.links && Owner(kind, l) == id :: Partner(kind, l)
  }

  function Filmography(s: Store, actorId: int): set<int> {
    Related(s, ActorKind, actorId)
  }

  function Cast(s: Store, movieId: int): set<int> {
    Related(s, MovieKind, movieId)
  }

  /** The two sides of the relationship are views of one pair set: a movie is in an actor's
      filmography exactly when that actor is in the movie's cast. */
  lemma ViewsAgree(s: Store, actorId: int, movieId: int)
    ensures movieId in Filmography(s, actorId) <==> (actorId, movieId) in s.links
    ensures actorId in Cast(s, movieId) <==> (actorId, movieId) in s.links
  {
    if movieId in Filmography(s, actorId) {
      var l :| l in s.links && l.0 == actorId && l.1 == movieId;
    }
    if actorId in Cast(s, movieId) {
      var l :| l in s.links && l.1 == movieId && l.0 == actorId;
    }
  }

  /** A stored row: a non-null name and every column holding a value of its declared type. */
  predicate RowValid(s: Store, kind: Kind, id: int) {
    && Attr(s, kind, id, "name") != Null
    && forall c :: c in Columns(kind) ==> Conforms(ColumnTypeOf(kind, c), Attr(s, kind, id, c))
  }

  /** `unique=True` on `name`. */
  ghost predicate NamesUnique(s: Store, kind: Kind) {
    forall i, j ::
      Has(s, kind, i) && Has(s, kind, j) && Attr(s, kind, i, "name") == Attr(s, kind, j, "name") ==> i == j
  }

  /** Both foreign keys of every association row resolve. */
  predicate LinksResolve(s: Store) {
    forall l :: l in s.links ==> l.0 in s.actors && l.1 in s.movies
  }

  ghost predicate TableValid(s: Store, kind: Kind) {
    && (forall id :: Has(s, kind, id) ==> RowValid(s, kind, id))
    && NamesUnique(s, kind)
  }

  /** The constraints the schema declares. */
  ghost predicate Valid(s: Store) {
    TableValid(s, ActorKind) && TableValid(s, MovieKind) && LinksResolve(s)
  }

  /** `t` and `s` agree on everything except possibly row `id` of table `kind` and that table's
      sequence. */
  ghost predicate SameOutsideRow(s: Store, t: Store, kind: Kind, id: int) {
    && t.links == s.links
    && match kind
       case ActorKind =>
         && t.movies == s.movies && t.nextMovieId == s.nextMovieId
         && forall i :: i != id ==> (i in t.actors <==> i in s.actors) && (i in s.actors ==> t.actors[i] == s.actors[i])
       case MovieKind =>
         && t.actors == s.actors && t.nextActorId == s.nextActorId
         && forall i :: i != id ==> (i in t.movies <==> i in s.movies) && (i in s.movies ==> t.movies[i] == s.movies[i])
  }

  /** `t` and `s` hold the same rows and sequences; only the association table may differ. */
  predicate SameRows(s: Store, t: Store) {
    t.actors == s.actors && t.movies == s.movies && t.nextActorId == s.nextActorId && t.nextMovieId == s.nextMovieId
  }

  /** `t` and `s` hold the same table `kind`. */
  predicate SameTable(s: Store, t: Store, kind: Kind) {
    match kind
    case ActorKind => t.actors == s.actors
    case MovieKind => t.movies == s.movies
  }

  lemma SameTableValid(s: Store, t: Store, kind: Kind)
    requires SameTable(s, t, kind)
    requires TableValid(s, kind)
    ensures TableValid(t, kind)
  {
    assert forall i :: Has(t, kind, i) == Has(s, kind, i);
    assert forall i, c :: Attr(t, kind, i, c) == Attr(s, kind, i, c);
  }

  /** What `SameOutsideRow` says about the generic accessors. */
  lemma OutsideRow(s: Store, t: Store, kind: Kind, id: int)
    requires SameOutsideRow(s, t, kind, id)
    ensures SameTable(s, t, Other(kind))
    ensures forall i :: i != id ==> Has(t, kind, i) == Has(s, kind, i)
    ensures forall i, c :: i != id ==> Attr(t, kind, i, c) == Attr(s, kind, i, c)
  {
  }

  /** A store that differs from a valid one only in row `id` of `kind`, keeps every row the association
      table may point to, and whose row `id` is well-formed and carries a name no other row has, is
      valid. */
  lemma ChangedRowValid(s: Store, t: Store, kind: Kind, id: int)
    requires Valid(s)
    requires SameOutsideRow(s, t, kind, id)
    requires Has(t, kind, id) && RowValid(t, kind, id)
    requires forall i :: i != id && Has(t, kind, i) ==> Attr(t, kind, i, "name") != Attr(t, kind, id, "name")
    ensures Valid(t)
  {
    OutsideRow(s, t, kind, id);
    SameTableValid(s, t, Other(kind));
    forall i | Has(t, kind, i)
      ensures RowValid(t, kind, i)
    {
      if i != id {
        assert RowValid(s, kind, i);
      }
    }
    forall i, j | Has(t, kind, i) && Has(t, kind, j) && Attr(t, kind, i, "name") == Attr(t, kind, j, "name")
      ensures i == j
    {
      if i != id && j != id {
        assert Has(s, kind, i) && Has(s, kind, j);
      }
    }
    assert TableValid(t, kind);
    forall l | l in t.links
      ensures l.0 in t.actors && l.1 in t.movies
    {
      assert l in s.links;
      assert Has(s, ActorKind, l.0) && Has(s, MovieKind, l.1);
      assert Has(t, ActorKind, l.0) && Has(t, MovieKind, l.1);
    }
    // Split on the kind so that `TableValid` of each table unfolds against its own map.
    match kind
    case ActorKind =>
    case MovieKind =>
  }
}

=== FILE: entities.dfy ===
/** The Actor and Movie records (models/actor.py, models/movie.py): their columns, the types the
    storage engine gives those columns, and how it converts a value assigned to an attribute into
    the column's type when the record is committed. */
module Entities {
  import opened Results
  import Seqs
  import Settings

  /** A calendar date, as `datetime.date` carries it. */
  datatype Date = Date(day: int, month: int, year: int)

  /** A value held by a mapped attribute: `None`, a `str`, an `int` or a `datetime.date`. */
  datatype Value = Null | Text(text: string) | Int(n: int) | Day(date: Date)

  /** The two mapped classes; the generic mixin is parameterised by one of them. */
  datatype Kind = ActorKind | MovieKind

  /** Column types as declared: `db.Integer`, `db.String(limit)` and `db.Date`. */
  datatype ColumnType = Integer | Varchar(limit: nat) | DateColumn

  const NameLimit: nat := 50
  const GenderLimit: nat := 11
  const GenreLimit: nat := 20

  /** The public fields of a kind, as the request handlers list them. */
  function Fields(kind: Kind): seq<string> {
    match kind
    case ActorKind => Settings.ActorFields
    case MovieKind => Settings.MovieFields
  }

  /** The non-key columns of a kind: every attribute a keyword argument may set besides `id`. */
  function Columns(kind: Kind): set<string> {
    match kind
    case ActorKind => {"name", "gender", "date_of_birth"}
    case MovieKind => {"name", "year", "genre"}
  }

  /** The declared type of each non-key column. */
  function ColumnTypeOf(kind: Kind, column: string): ColumnType
    requires column in Columns(kind)
  {
    match kind
    case ActorKind =>
      if column == "name" then Varchar(NameLimit)
      else if column == "gender" then Varchar(GenderLimit)
      else DateColumn
    case MovieKind =>
      if column == "name" then Varchar(NameLimit)
      else if column == "year" then Integer
      else Varchar(GenreLimit)
  }

  /** The public field list is exactly the key followed by the non-key columns. */
  lemma FieldsAreKeyAndColumns(kind: Kind)
    ensures Fields(kind)[0] == "id"
    ensures forall c :: c in Fields(kind) && c != "id" <==> c in Columns(kind)
    ensures forall i, j :: 0 <= i < j < |Fields(kind)| ==> Fields(kind)[i] != Fields(kind)[j]
  {
  }

  /** A value the column can hold as it is. */
  predicate Conforms(ty: ColumnType, v: Value) {
    match ty
    case Integer => v.Null? || v.Int?
    case Varchar(limit) => v.Null? || (v.Text? && |v.text| <= limit)
    case DateColumn => v.Null? || v.Day?
  }

  /** The value the storage engine stores for `v` in a column of type `ty`, or `None` when it refuses
      it: a text too long for its `String` column, a text that is not a decimal integer for an
      `Integer` column, or a value of an unrelated type. */
  function Coerce(ty: ColumnType, v: Value): (r: Option<Value>)
    ensures r.Some? ==> Conforms(ty, r.value)
    ensures Conforms(ty, v) ==> r == Some(v)
    ensures !(ty.Integer? && v.Text?) && r.Some? ==> r == Some(v)
    ensures ty.Integer? && v.Text? ==>
      (r.Some? <==> Seqs.DecimalValue(v.text).Some?) &&
      (r.Some? ==> r.value == Int(Seqs.DecimalValue(v.text).value))
  {
    match v
    case Null => Some(Null)
    case Text(t) =>
      (match ty
       case Integer =>
         (match Seqs.DecimalValue(t)
          case Some(n) => Some(Int(n))
          case None => None)
       case Varchar(limit) => if |t| <= limit then Some(v) else None
       case DateColumn => None)
    case Int(_) => if ty.Integer? then Some(v) else None
    case Day(_) => if ty.DateColumn? then Some(v) else None
  }

  /** An actor row without its key. */
  datatype Actor = Actor(name: Value, gender: Value, dateOfBirth: Value) {

    /** The column named `column`, `None` for anything else. */
    function Attr(column: string): Value {
      if column == "name" then name
      else if column == "gender" then gender
      else if column == "date_of_birth" then dateOfBirth
      else Null
    }

    /** `setattr` for every supplied column; keys that are not columns are ignored. */
    function Assign(values: map<string, Value>): (r: Actor)
      ensures forall c :: c in Columns(ActorKind) ==>
        r.Attr(c) == if c in values then values[c] else Attr(c)
    {
      Actor(
        if "name" in values then values["name"] else name,
        if "gender" in values then values["gender"] else gender,
        if "date_of_birth" in values then values["date_of_birth"] else dateOfBirth)
    }
  }

  /** A movie row without its key. */
  datatype Movie = Movie(name: Value, year: Value, genre: Value) {

    function Attr(column: string): Value {
      if column == "name" then name
      else if column == "year" then year
      else if column == "genre" then genre
      else Null
    }

    function Assign(values: map<string, Value>): (r: Movie)
      ensures forall c :: c in Columns(MovieKind) ==>
        r.Attr(c) == if c in values then values[c] else Attr(c)
    {
      Movie(
        if "name" in values then values["name"] else name,
        if "year" in values then values["year"] else year,
        if "genre" in values then values["genre"] else genre)
    }
  }

  /** A row with every column unset, as the constructor starts it. */
  const BlankActor := Actor(Null, Null, Null)
  const BlankMovie := Movie(Null, Null, Null)
}

=== FILE: handler_cases.dfy ===
/** Concrete requests and the answers the handlers give them. */
module HandlerCases {
  import opened Results
  import opened Entities
  import opened Db
  import opened Requests
  import ActorHandlers

  /** A request carrying two distinct fields. */
  function TwoFields(k1: string, v1: string, k2: string, v2: string): (f: Form)
    requires k1 != k2
    ensures f.keys == [k1, k2] && f.data == map[k1 := v1, k2 := v2]
  {
    RawForm([k1, k2], map[k1 := v1, k2 := v2])
  }

  /** `add_actor` without `gender` fails naming exactly that field, whatever the store holds. */
  lemma AddActorWithoutGender(s: Store, p: Parsers, name: string, born: string)
    ensures ActorHandlers.AddActor(s, TwoFields("name", name, "date_of_birth", born), p)
      == Exchange(s, Err(MissingFields(["gender"])))
  {
    var f := TwoFields("name", name, "date_of_birth", born);
    MissingGender(name, born);
    var c := ActorHandlers.AddChecks(f, p);
    assert !c[0].passes;
    assert FirstFailure(c) == Some(MissingFields(["gender"]));
    ActorHandlers.AddActorRejects(s, f, p);
  }

  /** The request names and dates the actor but gives no gender. */
  lemma MissingGender(name: string, born: string)
    ensures Missing(TwoFields("name", name, "date_of_birth", born), ActorKind) == ["gender"]
  {
    ActorRequired();
    var f := TwoFields("name", name, "date_of_birth", born);
    var keep := (c: string) => c !in f.data;
    FilterThree("name", "gender", "date_of_birth", keep);
    assert !keep("name") && keep("gender") && !keep("date_of_birth");
  }

  /** Filtering a three-element list, spelled out. */
  lemma FilterThree<T>(a: T, b: T, c: T, keep: T -> bool)
    ensures Seqs.Filter([a, b, c], keep)
      == (if keep(a) then [a] else []) + (if keep(b) then [b] else []) + (if keep(c) then [c] else [])
  {
    assert [c][1..] == [];
    assert Seqs.Filter([c], keep) == (if keep(c) then [c] else []);
    assert [b, c][1..] == [c];
    assert Seqs.Filter([b, c], keep) == (if keep(b) then [b] else []) + Seqs.Filter([c], keep);
    assert [a, b, c][1..] == [b, c];
  }

  lemma ActorRequired()
    ensures RequiredFields(ActorKind) == ["name", "gender", "date_of_birth"]
  {
    var fs := Fields(ActorKind);
    var keep := (c: string) => c != "id";
    assert fs == ["id", "name", "gender", "date_of_birth"];
    assert fs[1..] == ["name", "gender", "date_of_birth"];
    assert fs[1..][1..] == ["gender", "date_of_birth"];
    assert fs[1..][1..][1..] == ["date_of_birth"];
    assert fs[1..][1..][1..][1..] == [];
    assert Seqs.Filter(fs[1..][1..][1..][1..], keep) == [];
    assert Seqs.Filter(fs[1..][1..][1..], keep) == ["date_of_birth"];
    assert Seqs.Filter(fs[1..][1..], keep) == ["gender", "date_of_birth"];
    assert Seqs.Filter(fs[1..], keep) == ["name", "gender", "date_of_birth"];
  }
}

=== FILE: movie_handlers.dfy ===
/** The movie request handlers (controllers/movie.py). They follow the actor handlers except where
    the movie controller differs: the year is an integer, the failure texts name movies, and
    `update_movie` forwards the year as the text it received. */
module MovieHandlers {
  import opened Results
  import opened Entities
  import opened Db
  import opened Requests
  import Base
  import Seqs
  import Numerals

  /** `year`, when supplied, must be accepted by `int()`. */
  predicate YearParses(f: Form, p: Parsers) {
    "year" in f.data ==> p.toInt(f.data["year"]).Some?
  }

  /** The request values with a supplied year replaced by the integer it parses to. */
  function WithYear(f: Form, p: Parsers): (r: map<string, Value>)
    requires YearParses(f, p)
    ensures r.Keys == f.data.Keys
    ensures forall k :: k in f.data && k != "year" ==> r[k] == Text(f.data[k])
    ensures "year" in f.data ==> r["year"] == Int(p.toInt(f.data["year"]).value)
  {
    if "year" in f.data then Texts(f.data)["year" := Int(p.toInt(f.data["year"]).value)]
    else Texts(f.data)
  }

  // ---------------------------------------------------------------------------------------------
  // get_movie_by_id

  function GetChecks(s: Store, f: Form, p: Parsers): seq<Check> {
    IdChecks(s, MovieKind, f, p, NoIdSpecified, MovieAbsent)
  }

  function GetMovieById(s: Store, f: Form, p: Parsers): (r: Exchange)
    ensures r.store == s
    ensures r.reply.Err? ==> FirstFailure(GetChecks(s, f, p)) == Some(r.reply.error)
    ensures r.reply.Ok? ==> (FirstFailure(GetChecks(s, f, p)).None? && ParsedId(f, "id", p).Some?
      && Has(s, MovieKind, ParsedId(f, "id", p).value)
      && r.reply.value == Row(Projection(s, MovieKind, ParsedId(f, "id", p).value)))
  {
    match RequireRow(s, MovieKind, f, p, NoIdSpecified, MovieAbsent)
    case Err(e) => Exchange(s, Err(e))
    case Ok(id) => Exchange(s, Ok(Row(Projection(s, MovieKind, id))))
  }

  // ---------------------------------------------------------------------------------------------
  // add_movie

  function AddChecks(f: Form, p: Parsers): seq<Check> {
    [ Check(|Missing(f, MovieKind)| == 0, MissingFields(Missing(f, MovieKind))),
      Check(|Unknown(f, MovieKind)| == 0, InvalidFields(Unknown(f, MovieKind))),
      Check(YearParses(f, p), BadYear) ]
  }

  function PlanAddMovie(f: Form, p: Parsers): (r: Result<Call, Failure>)
    ensures r.Err? ==> FirstFailure(AddChecks(f, p)) == Some(r.error)
    ensures r.Ok? ==> (FirstFailure(AddChecks(f, p)).None? && YearParses(f, p)
      && r.value == CreateCall(MovieKind, WithYear(f, p)))
  {
    var c := AddChecks(f, p);
    FirstFailure3(c[0], c[1], c[2]);
    assert c == [c[0], c[1], c[2]];
    var missing := Missing(f, MovieKind);
    if |missing| > 0 then Err(MissingFields(missing))
    else
      var unknown := Unknown(f, MovieKind);
      if |unknown| > 0 then Err(InvalidFields(unknown))
      else
        assert "year" in Columns(MovieKind);
        match p.toInt(f.data["year"])
        case None => Err(BadYear)
        case Some(y) => Ok(CreateCall(MovieKind, Texts(f.data)["year" := Int(y)]))
  }

  function AddMovie(s: Store, f: Form, p: Parsers): (r: Exchange)
    ensures r.reply.Err? ==> r.store == s
    ensures r.reply.Ok? ==> Public(MovieKind, r.reply.value)
  {
    Dispatch(s, PlanAddMovie(f, p))
  }

  /** A request that fails a check is answered with the first failing check, in the order the handler
      tests them, and the store is left alone. */
  lemma AddMovieRejects(s: Store, f: Form, p: Parsers)
    requires FirstFailure(AddChecks(f, p)).Some?
    ensures AddMovie(s, f, p) == Exchange(s, Err(FirstFailure(AddChecks(f, p)).value))
  {
    assert PlanAddMovie(f, p).Err?;
  }

  // ---------------------------------------------------------------------------------------------
  // update_movie

  function UpdateChecks(s: Store, f: Form, p: Parsers): seq<Check> {
    IdChecks(s, MovieKind, f, p, NoIdSpecified, MovieAbsent)
    + [ Check(|Unknown(f, MovieKind)| == 0, MissingFields(Unknown(f, MovieKind))),
        Check(YearParses(f, p), BadYear) ]
  }

  /** The year is checked but forwarded as received: the column's type makes the integer of it. */
  function PlanUpdateMovie(s: Store, f: Form, p: Parsers): (r: Result<Call, Failure>)
    ensures r.Err? ==> FirstFailure(UpdateChecks(s, f, p)) == Some(r.error)
    ensures r.Ok? ==> (FirstFailure(UpdateChecks(s, f, p)).None?
      && ParsedId(f, "id", p).Some? && Has(s, MovieKind, ParsedId(f, "id", p).value)
      && r.value == UpdateCall(MovieKind, ParsedId(f, "id", p).value, Texts(f.data) - {"id"}))
  {
    var c := UpdateChecks(s, f, p);
    var head := IdChecks(s, MovieKind, f, p, NoIdSpecified, MovieAbsent);
    var tail := [ Check(|Unknown(f, MovieKind)| == 0, MissingFields(Unknown(f, MovieKind))), Check(YearParses(f, p), BadYear) ];
    FirstFailureAppend(head, tail);
    FirstFailure2(tail[0], tail[1]);
    match RequireRow(s, MovieKind, f, p, NoIdSpecified, MovieAbsent)
    case Err(e) => Err(e)
    case Ok(id) =>
      var unknown := Unknown(f, MovieKind);
      if |unknown| > 0 then Err(MissingFields(unknown))
      else if "year" in f.data && p.toInt(f.data["year"]).None? then Err(BadYear)
      else Ok(UpdateCall(MovieKind, id, Texts(f.data) - {"id"}))
  }

  function UpdateMovie(s: Store, f: Form, p: Parsers): (r: Exchange)
    ensures FirstFailure(UpdateChecks(s, f, p)).Some? ==> r == Exchange(s, Err(FirstFailure(UpdateChecks(s, f, p)).value))
    ensures r.reply.Err? ==> r.store == s
    ensures r.reply.Ok? ==> Public(MovieKind, r.reply.value)
  {
    Dispatch(s, PlanUpdateMovie(s, f, p))
  }

  // ---------------------------------------------------------------------------------------------
  // delete_movie

  function DeleteChecks(s: Store, f: Form, p: Parsers): seq<Check> {
    IdChecks(s, MovieKind, f, p, NoIdSpecified, MovieAbsent)
  }

  function DeleteMovie(s: Store, f: Form, p: Parsers): (r: Exchange)
    ensures FirstFailure(DeleteChecks(s, f, p)).Some? ==> r == Exchange(s, Err(FirstFailure(DeleteChecks(s, f, p)).value))
    ensures FirstFailure(DeleteChecks(s, f, p)).None? ==>
      && ParsedId(f, "id", p).Some? && Has(s, MovieKind, ParsedId(f, "id", p).value)
      && Base.Delete(s, MovieKind, ParsedId(f, "id", p).value).1 == 1
      && r == Exchange(Base.Delete(s, MovieKind, ParsedId(f, "id", p).value).0, Ok(Message("Record successfully deleted.")))
  {
    Dispatch(s, match RequireRow(s, MovieKind, f, p, NoIdSpecified, MovieAbsent)
      case Err(e) => Err(e)
      case Ok(id) => Ok(DeleteCall(MovieKind, id)))
  }

  // ---------------------------------------------------------------------------------------------
  // movie_add_relation

  function RelationChecks(s: Store, f: Form, p: Parsers): seq<Check> {
    var movieId := ParsedId(f, "id", p);
    var actorId := ParsedId(f, "relation_id", p);
    [ Check("id" in f.data, NoIdOf(MovieKind)),
      Check("relation_id" in f.data, NoIdOf(ActorKind)),
      Check(movieId.Some? && actorId.Some?, IdsNotIntegers) ]
    + [ Check(movieId.Some? && Has(s, MovieKind, movieId.value), MovieAbsent(movieId.GetOr(0))),
        Check(actorId.Some? && Has(s, ActorKind, actorId.value), ActorAbsent(actorId.GetOr(0))) ]
  }

  function PlanAddRelation(s: Store, f: Form, p: Parsers): (r: Result<Call, Failure>)
    ensures r.Err? ==> FirstFailure(RelationChecks(s, f, p)) == Some(r.error)
    ensures r.Ok? ==> (FirstFailure(RelationChecks(s, f, p)).None?
      && ParsedId(f, "id", p).Some? && ParsedId(f, "relation_id", p).Some?
      && r.value == AddRelationCall(MovieKind, ParsedId(f, "id", p).value, ParsedId(f, "relation_id", p).value))
  {
    var c := RelationChecks(s, f, p);
    FirstFailureAppend(c[..3], c[3..]);
    FirstFailure3(c[0], c[1], c[2]);
    FirstFailure2(c[3], c[4]);
    assert c[..3] == [c[0], c[1], c[2]] && c[3..] == [c[3], c[4]] && c == c[..3] + c[3..];
    if "id" !in f.data then Err(NoIdOf(MovieKind))
    else if "relation_id" !in f.data then Err(NoIdOf(ActorKind))
    else
      match (p.toInt(f.data["id"]), p.toInt(f.data["relation_id"]))
      case (Some(movieId), Some(actorId)) =>
        if !Has(s, MovieKind, movieId) then Err(MovieAbsent(movieId))
        else if !Has(s, ActorKind, actorId) then Err(ActorAbsent(actorId))
        else Ok(AddRelationCall(MovieKind, movieId, actorId))
      case _ => Err(IdsNotIntegers)
  }

  function MovieAddRelation(s: Store, f: Form, p: Parsers): (r: Exchange)
    ensures FirstFailure(RelationChecks(s, f, p)).Some? ==> r == Exchange(s, Err(FirstFailure(RelationChecks(s, f, p)).value))
    ensures r.reply.Err? ==> r.store == s
    ensures r.reply.Ok? ==> Public(MovieKind, r.reply.value)
  {
    Dispatch(s, PlanAddRelation(s, f, p))
  }

  // ---------------------------------------------------------------------------------------------
  // movie_clear_relations

  function ClearChecks(s: Store, f: Form, p: Parsers): seq<Check> {
    IdChecks(s, MovieKind, f, p, NoIdOf(MovieKind), MovieAbsent)
  }

  function MovieClearRelations(s: Store, f: Form, p: Parsers): (r: Exchange)
    ensures FirstFailure(ClearChecks(s, f, p)).Some? ==> r == Exchange(s, Err(FirstFailure(ClearChecks(s, f, p)).value))
    ensures FirstFailure(ClearChecks(s, f, p)).None? ==>
      && ParsedId(f, "id", p).Some? && r.reply.Ok?
      && Cast(r.store, ParsedId(f, "id", p).value) == {}
      && r.reply.value == RowWithRelated(Projection(r.store, MovieKind, ParsedId(f, "id", p).value), {})
      && SameRows(s, r.store)
  {
    Dispatch(s, match RequireRow(s, MovieKind, f, p, NoIdOf(MovieKind), MovieAbsent)
      case Err(e) => Err(e)
      case Ok(id) => Ok(ClearRelationsCall(MovieKind, id)))
  }

  // ---------------------------------------------------------------------------------------------
  // What a successful request leaves in the store

  /** A successful `add_movie` passed every check and answers with what `create` made of the request. */
  lemma AddMovieCreates(s: Store, f: Form, p: Parsers)
    requires AddMovie(s, f, p).reply.Ok?
    ensures YearParses(f, p) && "name" in f.data && "year" in f.data && "genre" in f.data
    ensures Base.Create(s, MovieKind, WithYear(f, p)).Ok?
    ensures var c := Base.Create(s, MovieKind, WithYear(f, p)).value;
      AddMovie(s, f, p) == Exchange(c.store, Ok(Row(Projection(c.store, MovieKind, c.id))))
  {
    var plan := PlanAddMovie(f, p);
    assert plan == Ok(CreateCall(MovieKind, WithYear(f, p)));
    PerformCreate(s, MovieKind, WithYear(f, p));
    assert |Missing(f, MovieKind)| == 0;
    assert "name" in Columns(MovieKind) && "year" in Columns(MovieKind) && "genre" in Columns(MovieKind);
  }

  /** What `create` makes of a request holding every column, the year parsed. */
  lemma CreatedRowTakesRequest(s: Store, f: Form, p: Parsers)
    requires YearParses(f, p) && "name" in f.data && "year" in f.data && "genre" in f.data
    requires Base.Create(s, MovieKind, WithYear(f, p)).Ok?
    ensures var c := Base.Create(s, MovieKind, WithYear(f, p)).value;
      && Attr(c.store, MovieKind, c.id, "name") == Text(f.data["name"])
      && Attr(c.store, MovieKind, c.id, "year") == Int(p.toInt(f.data["year"]).value)
      && Attr(c.store, MovieKind, c.id, "genre") == Text(f.data["genre"])
  {
    assert "name" in Columns(MovieKind) && "year" in Columns(MovieKind) && "genre" in Columns(MovieKind);
  }

  /** A successful `add_movie` stores a new row holding exactly the request's name, parsed year and
      genre under a key that was free, answers with that row, and keeps the schema's constraints. */
  lemma AddMovieStoresRequest(s: Store, f: Form, p: Parsers)
    requires AddMovie(s, f, p).reply.Ok?
    ensures var r := AddMovie(s, f, p);
      && r.reply.value.Row? && "id" in r.reply.value.fields && r.reply.value.fields["id"].Int?
      && "name" in f.data && "year" in f.data && "genre" in f.data
      && p.toInt(f.data["year"]).Some?
      && !Has(s, MovieKind, NewId(r)) && Has(r.store, MovieKind, NewId(r))
      && r.reply.value == Row(Projection(r.store, MovieKind, NewId(r)))
      && Attr(r.store, MovieKind, NewId(r), "name") == Text(f.data["name"])
      && Attr(r.store, MovieKind, NewId(r), "year") == Int(p.toInt(f.data["year"]).value)
      && Attr(r.store, MovieKind, NewId(r), "genre") == Text(f.data["genre"])
      && SameOutsideRow(s, r.store, MovieKind, NewId(r))
      && (Valid(s) ==> Valid(r.store))
  {
    AddMovieCreates(s, f, p);
    var fields := WithYear(f, p);
    var c := Base.Create(s, MovieKind, fields).value;
    assert NewId(AddMovie(s, f, p)) == c.id;
    CreatedRowTakesRequest(s, f, p);
    if Valid(s) {
      Base.CreatePreservesValid(s, MovieKind, fields);
    }
  }

  /** `get_movie_by_id` with the decimal text of an existing key answers with that row's projection. */
  lemma GetFinds(s: Store, id: int, text: string, p: Parsers)
    requires Has(s, MovieKind, id) && p.toInt(text) == Some(id)
    ensures GetMovieById(s, SingleField("id", text), p).reply == Ok(Row(Projection(s, MovieKind, id)))
  {
    var g := SingleField("id", text);
    assert ParsedId(g, "id", p) == Some(id);
    var checks := GetChecks(s, g, p);
    assert forall i :: 0 <= i < |checks| ==> checks[i].passes;
  }

  /** Adding a movie and then asking for it by the key the answer reports gives the same projection. */
  lemma AddThenGet(s: Store, f: Form, p: Parsers, text: string)
    requires AddMovie(s, f, p).reply.Ok?
    requires AddMovie(s, f, p).reply.value.Row?
    requires "id" in AddMovie(s, f, p).reply.value.fields && AddMovie(s, f, p).reply.value.fields["id"].Int?
    requires p.toInt(text) == Some(NewId(AddMovie(s, f, p)))
    ensures GetMovieById(AddMovie(s, f, p).store, SingleField("id", text), p).reply == AddMovie(s, f, p).reply
  {
    AddMovieCreates(s, f, p);
    var c := Base.Create(s, MovieKind, WithYear(f, p)).value;
    var r := AddMovie(s, f, p);
    assert r.store == c.store && r.reply == Ok(Row(Projection(c.store, MovieKind, c.id)));
    assert NewId(r) == c.id;
    GetFinds(c.store, c.id, text, p);
  }

  /** A successful `update_movie` passed every check and answers with what `update` made of the row. */
  lemma UpdateMovieUpdates(s: Store, f: Form, p: Parsers)
    requires UpdateMovie(s, f, p).reply.Ok?
    ensures YearParses(f, p) && ParsedId(f, "id", p).Some? && Has(s, MovieKind, ParsedId(f, "id", p).value)
    ensures Base.Update(s, MovieKind, ParsedId(f, "id", p).value, Texts(f.data) - {"id"}).Ok?
    ensures var t := Base.Update(s, MovieKind, ParsedId(f, "id", p).value, Texts(f.data) - {"id"}).value;
      UpdateMovie(s, f, p) == Exchange(t, Ok(Row(Projection(t, MovieKind, ParsedId(f, "id", p).value))))
  {
    var id := ParsedId(f, "id", p).value;
    assert PlanUpdateMovie(s, f, p) == Ok(UpdateCall(MovieKind, id, Texts(f.data) - {"id"}));
    PerformUpdate(s, MovieKind, id, Texts(f.data) - {"id"});
  }

  /** What `update` makes of row `id` given the request's texts: the year column reads the text as a
      decimal integer. */
  lemma RowTakesRequest(s: Store, id: int, f: Form)
    requires Base.Update(s, MovieKind, id, Texts(f.data) - {"id"}).Ok?
    ensures var t := Base.Update(s, MovieKind, id, Texts(f.data) - {"id"}).value;
      && (forall c :: c in Columns(MovieKind) && c !in f.data ==> Attr(t, MovieKind, id, c) == Attr(s, MovieKind, id, c))
      && (forall c :: c in Columns(MovieKind) && c in f.data && c != "year" ==> Attr(t, MovieKind, id, c) == Text(f.data[c]))
      && ("year" in f.data ==>
            (Seqs.DecimalValue(f.data["year"]).Some?
             && Attr(t, MovieKind, id, "year") == Int(Seqs.DecimalValue(f.data["year"]).value)))
  {
    var fields := Texts(f.data) - {"id"};
    var t := Base.Update(s, MovieKind, id, fields).value;
    forall c | c in Columns(MovieKind) && c !in f.data
      ensures Attr(t, MovieKind, id, c) == Attr(s, MovieKind, id, c)
    {
      assert c !in fields;
    }
    forall c | c in Columns(MovieKind) && c in f.data && c != "year"
      ensures Attr(t, MovieKind, id, c) == Text(f.data[c])
    {
      assert c in fields && fields[c] == Text(f.data[c]);
    }
    if "year" in f.data {
      assert "year" in fields && fields["year"] == Text(f.data["year"]);
      assert "year" in Columns(MovieKind);
    }
  }

  /** A successful `update_movie` writes every supplied column into the row the id names, the year as
      the integer its text denotes, keeps the others, touches no other row or association, and keeps
      the schema's constraints. */
  lemma UpdateMovieWritesRequest(s: Store, f: Form, p: Parsers)
    requires UpdateMovie(s, f, p).reply.Ok?
    ensures ParsedId(f, "id", p).Some?
    ensures var r := UpdateMovie(s, f, p); var id := ParsedId(f, "id", p).value;
      && Has(s, MovieKind, id) && Has(r.store, MovieKind, id)
      && SameOutsideRow(s, r.store, MovieKind, id)
      && r.reply.value == Row(Projection(r.store, MovieKind, id))
      && (forall c :: c in Columns(MovieKind) && c !in f.data ==> Attr(r.store, MovieKind, id, c) == Attr(s, MovieKind, id, c))
      && (forall c :: c in Columns(MovieKind) && c in f.data && c != "year" ==> Attr(r.store, MovieKind, id, c) == Text(f.data[c]))
      && ("year" in f.data ==>
            (Seqs.DecimalValue(f.data["year"]).Some?
             && Attr(r.store, MovieKind, id, "year") == Int(Seqs.DecimalValue(f.data["year"]).value)))
      && (Valid(s) ==> Valid(r.store))
  {
    UpdateMovieUpdates(s, f, p);
    var id := ParsedId(f, "id", p).value;
    RowTakesRequest(s, id, f);
    if Valid(s) {
      Base.UpdatePreservesValid(s, MovieKind, id, Texts(f.data) - {"id"});
    }
  }

  /** The year an update sends as the decimal text of `y` comes back as the integer `y`. */
  lemma UpdateYearRoundTrip(s: Store, f: Form, p: Parsers, y: int)
    requires UpdateMovie(s, f, p).reply.Ok?
    requires "year" in f.data && f.data["year"] == Seqs.IntToString(y)
    ensures ParsedId(f, "id", p).Some?
    ensures Attr(UpdateMovie(s, f, p).store, MovieKind, ParsedId(f, "id", p).value, "year") == Int(y)
  {
    UpdateMovieWritesRequest(s, f, p);
    Numerals.DecimalRoundTrip(y);
  }

  /** `update_movie` reports unknown fields, once the id checks pass, under the text "Missing required
      fields". */
  lemma UpdateReportsUnknownAsMissing(s: Store, f: Form, p: Parsers)
    requires ParsedId(f, "id", p).Some? && Has(s, MovieKind, ParsedId(f, "id", p).value)
    requires |Unknown(f, MovieKind)| > 0
    ensures UpdateMovie(s, f, p) == Exchange(s, Err(MissingFields(Unknown(f, MovieKind))))
    ensures Describe(UpdateMovie(s, f, p).reply.error).value[..|"Missing required fields: "|] == "Missing required fields: "
  {
    var id := ParsedId(f, "id", p).value;
    assert RequireRow(s, MovieKind, f, p, NoIdSpecified, MovieAbsent) == Ok(id);
    assert PlanUpdateMovie(s, f, p) == Err(MissingFields(Unknown(f, MovieKind)));
    MissingFieldsText(Unknown(f, MovieKind));
  }

  /** A successful `movie_add_relation` puts the actor in the movie's cast and the movie in the actor's
      filmography, adds that one association and nothing else, answers with the movie and its whole
      cast, and keeps the schema's constraints. */
  lemma AddRelationLinks(s: Store, f: Form, p: Parsers)
    requires MovieAddRelation(s, f, p).reply.Ok?
    ensures ParsedId(f, "id", p).Some? && ParsedId(f, "relation_id", p).Some?
    ensures var r := MovieAddRelation(s, f, p);
      var movieId := ParsedId(f, "id", p).value; var actorId := ParsedId(f, "relation_id", p).value;
      && actorId in Cast(r.store, movieId) && movieId in Filmography(r.store, actorId)
      && SameRows(s, r.store) && r.store.links == s.links + {(actorId, movieId)}
      && r.reply.value == RowWithRelated(Projection(r.store, MovieKind, movieId), Cast(r.store, movieId))
      && (Valid(s) ==> Valid(r.store))
  {
    var movieId := ParsedId(f, "id", p).value;
    var actorId := ParsedId(f, "relation_id", p).value;
    var r := MovieAddRelation(s, f, p);
    ViewsAgree(r.store, actorId, movieId);
    if Valid(s) {
      Base.RelationChangesPreserveValid(s, MovieKind, movieId, actorId);
    }
  }

  /** A successful `movie_clear_relations` leaves every other movie's associations as they were and
      keeps the schema's constraints. */
  lemma ClearLeavesOthers(s: Store, f: Form, p: Parsers)
    requires MovieClearRelations(s, f, p).reply.Ok?
    ensures ParsedId(f, "id", p).Some?
    ensures var r := MovieClearRelations(s, f, p); var id := ParsedId(f, "id", p).value;
      && (forall l: Link :: l.1 != id ==> (l in r.store.links <==> l in s.links))
      && (forall other :: other != id ==> Cast(r.store, other) == Cast(s, other))
      && (Valid(s) ==> Valid(r.store))
  {
    var id := ParsedId(f, "id", p).value;
    var r := MovieClearRelations(s, f, p);
    forall other | other != id
      ensures Cast(r.store, other) == Cast(s, other)
    {
      forall a ensures a in Cast(r.store, other) <==> a in Cast(s, other) {
        ViewsAgree(r.store, a, other);
        ViewsAgree(s, a, other);
      }
    }
    if Valid(s) {
      Base.RelationChangesPreserveValid(s, MovieKind, id, 0);
    }
  }
}

=== FILE: numerals.dfy ===
/** Reading decimal text back: the engine's reader inverts Python's `str` on integers. */
module Numerals {
  import opened Results
  import opened Seqs

  lemma {:induction false} NatToStringRoundTrip(n: nat)
    ensures DigitsValue(NatToString(n)) == n
    decreases n
  {
    if n >= 10 {
      var t := NatToString(n);
      assert t[..|t| - 1] == NatToString(n / 10);
      NatToStringRoundTrip(n / 10);
    }
  }

  /** The digits of a natural number read back as that number, and they start with no sign. */
  lemma UnsignedRoundTrip(n: nat)
    ensures UnsignedValue(NatToString(n)) == Some(n)
    ensures IsDigit(NatToString(n)[0])
  {
    NatToStringRoundTrip(n);
  }

  /** Reading back the decimal rendering of an integer gives the integer. */
  lemma DecimalRoundTrip(i: int)
    ensures DecimalValue(IntToString(i)) == Some(i)
  {
    if i < 0 {
      NegativeRoundTrip(i);
      NegativeRendering(i);
    } else {
      NonNegativeRoundTrip(i);
      NonNegativeRendering(i);
    }
  }

  lemma NonNegativeRendering(i: int)
    requires i >= 0
    ensures DecimalValue(IntToString(i)) == DecimalValue(NatToString(i))
  {
  }

  lemma NegativeRendering(i: int)
    requires i < 0
    ensures DecimalValue(IntToString(i)) == DecimalValue("-" + NatToString(-i))
  {
  }

  lemma NonNegativeRoundTrip(i: int)
    requires i >= 0
    ensures DecimalValue(NatToString(i)) == Some(i)
  {
    var t := NatToString(i);
    UnsignedRoundTrip(i);
    assert t[0] != '-' && t[0] != '+';
  }

  lemma NegativeRoundTrip(i: int)
    requires i < 0
    ensures DecimalValue("-" + NatToString(-i)) == Some(i)
  {
    UnsignedRoundTrip(-i);
    var u := NatToString(-i);
    assert ("-" + u)[0] == '-' && ("-" + u)[1..] == u;
  }

  /** `t` is `pre`, then text that reads back as `n`, then `post`. */
  predicate NamesNumber(t: string, pre: string, post: string, n: int) {
    && |pre| + |post| <= |t|
    && t[..|pre|] == pre
    && t[|t| - |post|..] == post
    && DecimalValue(t[|pre|..|t| - |post|]) == Some(n)
  }

  /** A message that embeds `str(n)` between fixed texts names `n` recoverably. */
  lemma FramedNumber(pre: string, n: int, post: string)
    ensures NamesNumber(pre + IntToString(n) + post, pre, post, n)
  {
    var t := pre + IntToString(n) + post;
    assert t[..|pre|] == pre;
    assert t[|t| - |post|..] == post;
    assert t[|pre|..|t| - |post|] == IntToString(n);
    DecimalRoundTrip(n);
  }
}

=== FILE: requests.dfy ===
/** What the actor and movie handlers share: the parsed request, the library parsers they rely on,
    the typed errors they answer with, the ordered-check reference used to state the order of their
    checks, and the single call into the mixin that a request passing every check turns into. */
module Requests {
  import opened Results
  import opened Entities
  import opened Db
  import Base
  import Seqs
  import Numerals
  import Settings

  /** A form-encoded request body as a dict: the keys in the order they arrived and their values. */
  datatype RawForm = RawForm(keys: seq<string>, data: map<string, string>) {
    ghost predicate WellFormed() {
      && (forall i, j :: 0 <= i < j < |keys| ==> keys[i] != keys[j])
      && (forall k :: k in data <==> k in keys)
    }
  }

  type Form = f: RawForm | f.WellFormed() witness RawForm([], map[])

  /** The request that carries the single field `key`. */
  function SingleField(key: string, text: string): (f: Form)
    ensures f.data == map[key := text]
  {
    RawForm([key], map[key := text])
  }

  /** Python's `int(text)` and `datetime.strptime(text, DATE_FORMAT).date()`, each `None` where the
      library raises `ValueError`. Their lexical rules belong to the library and stay abstract. */
  datatype Parsers = Parsers(toInt: string -> Option<int>, toDate: string -> Option<Date>)

  /** The error answers of the handlers. */
  datatype Failure =
    | NoIdSpecified
    | NoIdOf(kind: Kind)
    | IdNotInteger
    | IdsNotIntegers
    | NoSuchEntity(kind: Kind, id: int)
    | NoSuchRecord(id: int)
    | MissingFields(fields: seq<string>)
    | InvalidFields(fields: seq<string>)
    | BadDate
    | BadYear
    | StoreFailed(cause: Base.StoreError)

  /** The failures of a handler that finds no actor, or no movie, with the given id. */
  function ActorAbsent(id: int): Failure {
    NoSuchEntity(ActorKind, id)
  }

  function MovieAbsent(id: int): Failure {
    NoSuchEntity(MovieKind, id)
  }

  function KindName(kind: Kind, capital: bool): string {
    match kind
    case ActorKind => if capital then "Actor" else "actor"
    case MovieKind => if capital then "Movie" else "movie"
  }

  /** The text of the `error` member of the answer; `None` where the storage engine writes it. */
  function Describe(e: Failure): (r: Option<string>)
    ensures r.None? <==> e.StoreFailed? && !e.cause.NotFound?
  {
    match e
    case NoIdSpecified => Some("No id specified.")
    case NoIdOf(kind) => Some("No " + KindName(kind, false) + " id specified.")
    case IdNotInteger => Some("Id must be an integer.")
    case IdsNotIntegers => Some("Ids must be integers.")
    case NoSuchEntity(kind, id) =>
      Some(KindName(kind, true) + " with such id " + Seqs.IntToString(id) + " does not exist.")
    case NoSuchRecord(id) => Some("Record with such id " + Seqs.IntToString(id) + " does not exist.")
    case MissingFields(fields) => Some("Missing required fields: " + Seqs.Join(fields, ", ") + ".")
    case InvalidFields(fields) => Some("Invalid fields: " + Seqs.Join(fields, ", ") + ".")
    case BadDate => Some("Date must be in format " + Settings.DateFormat + ".")
    case BadYear => Some("Year must be an integer.")
    case StoreFailed(cause) => Base.ErrorText(cause)
  }

  /** The absent-row texts name the requested key in a form that reads back as that key. */
  lemma AbsentTextNamesKey(kind: Kind, id: int)
    ensures Describe(NoSuchEntity(kind, id)).Some?
    ensures Numerals.NamesNumber(Describe(NoSuchEntity(kind, id)).value, KindName(kind, true) + " with such id ", " does not exist.", id)
    ensures Describe(NoSuchRecord(id)).Some?
    ensures Numerals.NamesNumber(Describe(NoSuchRecord(id)).value, "Record with such id ", " does not exist.", id)
  {
    Numerals.FramedNumber(KindName(kind, true) + " with such id ", id, " does not exist.");
    Numerals.FramedNumber("Record with such id ", id, " does not exist.");
  }

  /** The text of a missing-fields answer starts with its fixed prefix, whatever the list. */
  lemma MissingFieldsText(fields: seq<string>)
    ensures Describe(MissingFields(fields)).Some?
    ensures Describe(MissingFields(fields)).value[..|"Missing required fields: "|] == "Missing required fields: "
  {
    var t := "Missing required fields: ";
    assert Describe(MissingFields(fields)).value == t + (Seqs.Join(fields, ", ") + ".");
  }

  /** One validation step: whether it passes and what the handler answers when it is the first that
      does not. */
  datatype Check = Check(passes: bool, failure: Failure)

  /** The answer of a handler that runs `checks` in order and stops at the first that does not pass. */
  function FirstFailure(checks: seq<Check>): (r: Option<Failure>)
    ensures r.None? <==> forall i :: 0 <= i < |checks| ==> checks[i].passes
    ensures r.Some? ==> exists i :: (0 <= i < |checks| && !checks[i].passes && r.value == checks[i].failure
      && forall j :: 0 <= j < i ==> checks[j].passes)
  {
    if |checks| == 0 then None
    else if !checks[0].passes then Some(checks[0].failure)
    else
      var rest := FirstFailure(checks[1..]);
      if rest.Some? then
        var i :| 0 <= i < |checks| - 1 && !checks[1..][i].passes
          && rest.value == checks[1..][i].failure && forall j :: 0 <= j < i ==> checks[1..][j].passes;
        assert !checks[i + 1].passes && forall j :: 0 <= j < i + 1 ==> checks[j].passes;
        rest
      else
        assert forall i :: 0 <= i < |checks| ==> checks[i].passes by {
          forall i | 0 <= i < |checks| ensures checks[i].passes {
            if i > 0 { assert checks[1..][i - 1] == checks[i]; }
          }
        }
        rest
  }

  lemma FirstFailureCons(c: Check, rest: seq<Check>)
    ensures FirstFailure([c] + rest) == if !c.passes then Some(c.failure) else FirstFailure(rest)
  {
    assert ([c] + rest)[1..] == rest;
  }

  lemma FirstFailure2(a: Check, b: Check)
    ensures FirstFailure([a, b]) ==
      if !a.passes then Some(a.failure) else if !b.passes then Some(b.failure) else None
  {
    FirstFailureCons(a, [b]);
    FirstFailureCons(b, []);
    assert [a, b] == [a] + [b] && [b] == [b] + [];
  }

  lemma FirstFailure3(a: Check, b: Check, c: Check)
    ensures FirstFailure([a, b, c]) ==
      if !a.passes then Some(a.failure) else if !b.passes then Some(b.failure)
      else if !c.passes then Some(c.failure) else None
  {
    FirstFailureCons(a, [b, c]);
    FirstFailure2(b, c);
    assert [a, b, c] == [a] + [b, c];
  }

  /** The checks of a prefix run first: a failing prefix decides the answer. */
  lemma {:induction false} FirstFailureAppend(a: seq<Check>, b: seq<Check>)
    ensures FirstFailure(a + b) == if FirstFailure(a).Some? then FirstFailure(a) else FirstFailure(b)
  {
    if |a| > 0 {
      assert (a + b)[0] == a[0];
      assert (a + b)[1..] == a[1..] + b;
      FirstFailureAppend(a[1..], b);
    } else {
      assert a + b == b;
    }
  }

  /** The id of `key` as `int()` reads it, `None` when the key is absent or the text is no integer. */
  function ParsedId(f: Form, key: string, p: Parsers): Option<int> {
    if key in f.data then p.toInt(f.data[key]) else None
  }

  /** The common head of the get, update, delete and clear handlers: `id` present, an integer, and the
      key of an existing row, checked in that order. */
  function IdChecks(s: Store, kind: Kind, f: Form, p: Parsers, noId: Failure, absent: int -> Failure): seq<Check> {
    var id := ParsedId(f, "id", p);
    [ Check("id" in f.data, noId),
      Check(id.Some?, IdNotInteger),
      Check(id.Some? && Has(s, kind, id.value), absent(id.GetOr(0))) ]
  }

  /** The handlers' implementation of those three checks. */
  function RequireRow(s: Store, kind: Kind, f: Form, p: Parsers, noId: Failure, absent: int -> Failure): (r: Result<int, Failure>)
    ensures r.Err? ==> FirstFailure(IdChecks(s, kind, f, p, noId, absent)) == Some(r.error)
    ensures r.Ok? ==> (FirstFailure(IdChecks(s, kind, f, p, noId, absent)).None?
      && ParsedId(f, "id", p) == Some(r.value) && Has(s, kind, r.value))
  {
    var cs := IdChecks(s, kind, f, p, noId, absent);
    FirstFailure3(cs[0], cs[1], cs[2]);
    assert cs == [cs[0], cs[1], cs[2]];
    if "id" !in f.data then Err(noId)
    else
      match p.toInt(f.data["id"])
      case None => Err(IdNotInteger)
      case Some(id) => if !Has(s, kind, id) then Err(absent(id)) else Ok(id)
  }

  /** `[field for field in FIELDS if field != 'id']`: the non-key columns. */
  function RequiredFields(kind: Kind): (r: seq<string>)
    ensures forall c :: c in r <==> c in Columns(kind)
  {
    FieldsAreKeyAndColumns(kind);
    Seqs.FilterKeeps(Fields(kind), (c: string) => c != "id");
    Seqs.Filter(Fields(kind), (c: string) => c != "id")
  }

  /** The required fields the request lacks, in declaration order. */
  function Missing(f: Form, kind: Kind): (r: seq<string>)
    ensures forall c :: c in r <==> c in Columns(kind) && c !in f.data
  {
    Seqs.FilterKeeps(RequiredFields(kind), (c: string) => c !in f.data);
    Seqs.Filter(RequiredFields(kind), (c: string) => c !in f.data)
  }

  /** Whether a request key is outside the public field list of `kind`. */
  function IsUnknown(kind: Kind): string -> bool {
    (k: string) => k !in Fields(kind)
  }

  /** The request keys outside the public field list, in request order. */
  function Unknown(f: Form, kind: Kind): (r: seq<string>)
    ensures forall k :: k in r <==> k in f.data && k !in Fields(kind)
  {
    Seqs.FilterKeeps(f.keys, IsUnknown(kind));
    Seqs.Filter(f.keys, IsUnknown(kind))
  }

  /** The unknown keys among the first `n` keys of the request are listed before those among the
      rest: the list keeps request order. */
  lemma UnknownInRequestOrder(f: Form, kind: Kind, n: nat)
    requires n <= |f.keys|
    ensures Unknown(f, kind) == Seqs.Filter(f.keys[..n], IsUnknown(kind)) + Seqs.Filter(f.keys[n..], IsUnknown(kind))
  {
    assert f.keys == f.keys[..n] + f.keys[n..];
    Seqs.FilterAppend(f.keys[..n], f.keys[n..], IsUnknown(kind));
  }

  /** Every value of the request, as the `str` it arrived as. */
  function Texts(data: map<string, string>): (r: map<string, Value>)
    ensures r.Keys == data.Keys
    ensures forall k :: k in r ==> r[k] == Text(data[k])
  {
    map k | k in data :: Text(data[k])
  }

  /** The one mixin call a request that passes every check turns into. */
  datatype Call =
    | CreateCall(kind: Kind, fields: map<string, Value>)
    | UpdateCall(kind: Kind, id: int, fields: map<string, Value>)
    | DeleteCall(kind: Kind, id: int)
    | AddRelationCall(kind: Kind, id: int, rel: int)
    | ClearRelationsCall(kind: Kind, id: int)

  /** The body of a successful answer. */
  datatype Body =
    | Row(fields: map<string, Value>)
    | Rows(rows: seq<map<string, Value>>)
    | RowWithRelated(fields: map<string, Value>, related: set<int>)
    | Message(text: string)

  /** What a handler leaves behind: the store after the request, and its answer. */
  datatype Exchange = Exchange(store: Store, reply: Result<Body, Failure>)

  /** `{k: v for k, v in obj.__dict__.items() if k in FIELDS}` for row `id` after a refresh. */
  function Projection(s: Store, kind: Kind, id: int): (r: map<string, Value>)
    ensures forall k :: k in r <==> k in Fields(kind)
    ensures r["id"] == Int(id)
    ensures forall c :: c in Columns(kind) ==> c in r && r[c] == Attr(s, kind, id, c)
  {
    FieldsAreKeyAndColumns(kind);
    map k | k in Fields(kind) :: if k == "id" then Int(id) else Attr(s, kind, id, k)
  }

  /** Every projection lists only public fields. */
  predicate Public(kind: Kind, b: Body) {
    match b
    case Row(m) => forall k :: k in m ==> k in Fields(kind)
    case Rows(rows) => forall i, k :: 0 <= i < |rows| && k in rows[i] ==> k in Fields(kind)
    case RowWithRelated(m, _) => forall k :: k in m ==> k in Fields(kind)
    case Message(_) => true
  }

  /** The keys of table `kind` in the order the listing gives them. */
  function ListedIds(s: Store, kind: Kind): seq<int> {
    Seqs.SortedInts(Ids(s, kind))
  }

  /** `get_all_*`: the projection of every row, here in ascending key order. */
  function ListAll(s: Store, kind: Kind): (r: Exchange)
    ensures r.store == s && r.reply.Ok? && r.reply.value.Rows? && Public(kind, r.reply.value)
    ensures |r.reply.value.rows| == |ListedIds(s, kind)| == |Ids(s, kind)|
    ensures forall i :: 0 <= i < |r.reply.value.rows| ==>
      r.reply.value.rows[i] == Projection(s, kind, ListedIds(s, kind)[i])
  {
    var ids := ListedIds(s, kind);
    Exchange(s, Ok(Rows(seq(|ids|, i requires 0 <= i < |ids| => Projection(s, kind, ids[i])))))
  }

  /** The listing shows every row exactly once, in ascending key order. */
  lemma ListAllShowsEveryRow(s: Store, kind: Kind, rows: seq<map<string, Value>>)
    requires rows == ListAll(s, kind).reply.value.rows
    ensures forall i :: 0 <= i < |rows| ==> "id" in rows[i] && rows[i]["id"].Int?
    ensures forall id :: Has(s, kind, id) <==> exists i :: 0 <= i < |rows| && rows[i]["id"] == Int(id)
    ensures forall i, j :: 0 <= i < j < |rows| ==> rows[i]["id"].n < rows[j]["id"].n
  {
    var ids := ListedIds(s, kind);
    ListedKeys(s, kind, rows);
    KeysCover(ids, rows, Ids(s, kind));
  }

  lemma ListedKeys(s: Store, kind: Kind, rows: seq<map<string, Value>>)
    requires rows == ListAll(s, kind).reply.value.rows
    ensures |rows| == |ListedIds(s, kind)|
    ensures forall i :: 0 <= i < |rows| ==> "id" in rows[i] && rows[i]["id"] == Int(ListedIds(s, kind)[i])
  {
    var ids := ListedIds(s, kind);
    forall i | 0 <= i < |rows|
      ensures "id" in rows[i] && rows[i]["id"] == Int(ids[i])
    {
      FieldsAreKeyAndColumns(kind);
      assert rows[i] == Projection(s, kind, ids[i]);
    }
  }

  lemma KeysCover(ids: seq<int>, rows: seq<map<string, Value>>, keys: set<int>)
    requires |rows| == |ids|
    requires forall i :: 0 <= i < |rows| ==> "id" in rows[i] && rows[i]["id"] == Int(ids[i])
    requires forall x :: x in ids <==> x in keys
    requires forall i, j :: 0 <= i < j < |ids| ==> ids[i] < ids[j]
    ensures forall id :: id in keys <==> exists i :: 0 <= i < |rows| && rows[i]["id"] == Int(id)
    ensures forall i, j :: 0 <= i < j < |rows| ==> rows[i]["id"].n < rows[j]["id"].n
  {
    forall id | id in keys
      ensures exists i :: 0 <= i < |rows| && rows[i]["id"] == Int(id)
    {
      var i :| 0 <= i < |ids| && ids[i] == id;
      assert rows[i]["id"] == Int(id);
    }
  }

  /** Run the mixin call and shape the answer. A failing call leaves the store as it was. */
  function Perform(s: Store, call: Call): (r: Exchange)
    ensures r.reply.Err? ==> r.store == s && r.reply.error.StoreFailed?
    ensures r.reply.Ok? ==> Public(call.kind, r.reply.value)
  {
    match call
    case CreateCall(kind, fields) =>
      (match Base.Create(s, kind, fields)
       case Err(e) => Exchange(s, Err(StoreFailed(e)))
       case Ok(c) => Exchange(c.store, Ok(Row(Projection(c.store, kind, c.id)))))
    case UpdateCall(kind, id, fields) =>
      (match Base.Update(s, kind, id, fields)
       case Err(e) => Exchange(s, Err(StoreFailed(e)))
       case Ok(t) => Exchange(t, Ok(Row(Projection(t, kind, id)))))
    case DeleteCall(kind, id) =>
      Exchange(Base.Delete(s, kind, id).0, Ok(Message("Record successfully deleted.")))
    case AddRelationCall(kind, id, rel) =>
      (match Base.AddRelation(s, kind, id, rel)
       case Err(e) => Exchange(s, Err(StoreFailed(e)))
       case Ok(t) => Exchange(t, Ok(RowWithRelated(Projection(t, kind, id), Related(t, kind, id)))))
    case ClearRelationsCall(kind, id) =>
      (match Base.ClearRelations(s, kind, id)
       case Err(e) => Exchange(s, Err(StoreFailed(e)))
       case Ok(t) => Exchange(t, Ok(RowWithRelated(Projection(t, kind, id), Related(t, kind, id)))))
  }

  /** A handler's validation either answers with an error and leaves the store alone, or hands the
      request to the mixin. */
  function Dispatch(s: Store, plan: Result<Call, Failure>): (r: Exchange)
    ensures r.store != s ==> plan.Ok? && r.reply.Ok?
    ensures r.reply.Err? && !r.reply.error.StoreFailed? ==> r.store == s && plan == Err(r.reply.error)
  {
    match plan
    case Err(e) => Exchange(s, Err(e))
    case Ok(call) => Perform(s, call)
  }

  /** The key a successful `add_*` answer reports. */
  function NewId(r: Exchange): int
    requires r.reply.Ok? && r.reply.value.Row? && "id" in r.reply.value.fields && r.reply.value.fields["id"].Int?
  {
    r.reply.value.fields["id"].n
  }

  /** A `create` that succeeds answers with the projection of the row the mixin created. */
  lemma PerformCreate(s: Store, kind: Kind, fields: map<string, Value>)
    requires Perform(s, CreateCall(kind, fields)).reply.Ok?
    ensures Base.Create(s, kind, fields).Ok?
    ensures var c := Base.Create(s, kind, fields).value;
      Perform(s, CreateCall(kind, fields)) == Exchange(c.store, Ok(Row(Projection(c.store, kind, c.id))))
  {
  }

  /** An `update` that succeeds answers with the projection of the row the mixin rewrote. */
  lemma PerformUpdate(s: Store, kind: Kind, id: int, fields: map<string, Value>)
    requires Perform(s, UpdateCall(kind, id, fields)).reply.Ok?
    ensures Base.Update(s, kind, id, fields).Ok?
    ensures var t := Base.Update(s, kind, id, fields).value;
      Perform(s, UpdateCall(kind, id, fields)) == Exchange(t, Ok(Row(Projection(t, kind, id))))
  {
  }

  /** An `add_relation` that succeeds answers with the row and its whole related collection. */
  lemma PerformAddRelation(s: Store, kind: Kind, id: int, rel: int)
    requires Perform(s, AddRelationCall(kind, id, rel)).reply.Ok?
    ensures Base.AddRelation(s, kind, id, rel).Ok?
    ensures var t := Base.AddRelation(s, kind, id, rel).value;
      Perform(s, AddRelationCall(kind, id, rel)) == Exchange(t, Ok(RowWithRelated(Projection(t, kind, id), Related(t, kind, id))))
  {
  }
}

=== FILE: results.dfy ===
/** Optional values and results with a typed error, used by every layer of the model. */
module Results {

  /** A value that may be absent, like Python's `None`. */
  datatype Option<+T> = None | Some(value: T) {

    /** The carried value, or `default` when absent. */
    function GetOr(default: T): T {
      match this
      case Some(v) => v
      case None => default
    }
  }

  /** The outcome of an operation that either succeeds with a value or fails with an error. */
  datatype Result<+T, +E> = Ok(value: T) | Err(error: E)
}

=== FILE: scenario.dfy ===
/** The mixin walk-through of my_tests/test_class_methods.py, replayed on an empty store: create an
    actor and a movie, update both, link them, create a second movie and link it, clear the actor's
    filmography and delete the actor. */
module Scenario {
  import opened Results
  import opened Entities
  import opened Db
  import opened Base

  /** What the walk-through prints: the keys it is given, the filmography after the two links, the
      filmography after clearing, and the count `delete` returns. */
  datatype Observed = Observed(actor: int, movie: int, secondMovie: int, linked: set<int>, cleared: set<int>, deleted: nat)

  function Megan(): map<string, Value> {
    map["name" := Text("Megan Wolf"), "gender" := Text("female"), "date_of_birth" := Day(Date(16, 5, 1986))]
  }

  function MeganUpdated(): map<string, Value> {
    map["name" := Text("Not Megan Fox"), "gender" := Text("male"), "date_of_birth" := Day(Date(16, 5, 2000))]
  }

  function Transformers(): map<string, Value> {
    map["name" := Text("Transformers"), "genre" := Text("action"), "year" := Int(2007)]
  }

  function Turtles(): map<string, Value> {
    map["name" := Text("Teenage Mutant Ninja Turtles"), "genre" := Text("bad movie"), "year" := Int(2014)]
  }

  /** The walk-through, stopping at the first mixin call that fails. */
  function Walk(): Result<Observed, StoreError> {
    match Create(Empty, ActorKind, Megan())
    case Err(e) => Err(e)
    case Ok(actor) => AfterActor(actor)
  }

  function AfterActor(actor: Created): Result<Observed, StoreError> {
    match Create(actor.store, MovieKind, Transformers())
    case Err(e) => Err(e)
    case Ok(movie) => AfterMovie(actor, movie)
  }

  function AfterMovie(actor: Created, movie: Created): Result<Observed, StoreError> {
    match Update(movie.store, ActorKind, 1, MeganUpdated())
    case Err(e) => Err(e)
    case Ok(s1) =>
      match Update(s1, MovieKind, 1, Turtles())
      case Err(e) => Err(e)
      case Ok(s2) => AfterUpdates(actor, movie, s2)
  }

  function AfterUpdates(actor: Created, movie: Created, s2: Store): Result<Observed, StoreError> {
    match AddRelation(s2, ActorKind, 1, 1)
    case Err(e) => Err(e)
    case Ok(s3) =>
      match Create(s3, MovieKind, Transformers())
      case Err(e) => Err(e)
      case Ok(second) => AfterSecondMovie(actor, movie, second)
  }

  function AfterSecondMovie(actor: Created, movie: Created, second: Created): Result<Observed, StoreError> {
    match AddRelation(second.store, ActorKind, 1, second.id)
    case Err(e) => Err(e)
    case Ok(s4) =>
      match ClearRelations(s4, ActorKind, 1)
      case Err(e) => Err(e)
      case Ok(s5) =>
        Ok(Observed(actor.id, movie.id, second.id, Filmography(s4, 1), Filmography(s5, 1), Delete(s5, ActorKind, 1).1))
  }

  /** Every call of the walk-through commits: the keys are 1, 1 and 2, the actor is linked to both
      movies, clearing empties its filmography, and `delete` reports one row. */
  lemma WalkOutcome()
    ensures Walk() == Ok(Observed(1, 1, 2, {1, 2}, {}, 1))
  {
    var a := FirstActor();
    var m := FirstMovie(a);
    var s2 := Updates(m);
    var s3, second := SecondMovie(s2);
    LastSteps(a, m, second);
    assert AfterUpdates(a, m, s2) == AfterSecondMovie(a, m, second);
    assert AfterMovie(a, m) == AfterUpdates(a, m, s2);
    assert AfterActor(a) == AfterMovie(a, m);
  }

  /** Linking movie 2, clearing and deleting: the filmography holds both movies, then none, and one
      row goes. */
  lemma LastSteps(a: Created, m: Created, second: Created)
    requires a.id == 1 && m.id == 1 && second.id == 2
    requires Has(second.store, ActorKind, 1) && Has(second.store, MovieKind, 2)
    requires second.store.links == {(1, 1)}
    ensures AfterSecondMovie(a, m, second) == Ok(Observed(1, 1, 2, {1, 2}, {}, 1))
  {
    var s4 := AddRelation(second.store, ActorKind, 1, 2).value;
    assert s4.links == {(1, 1), (1, 2)};
    LinkedToBoth(s4);
    var s5 := ClearRelations(s4, ActorKind, 1).value;
    assert Has(s5, ActorKind, 1);
  }

  /** `Actor.create(**data_actor)` on the empty store commits under key 1. */
  lemma FirstActor() returns (a: Created)
    ensures Create(Empty, ActorKind, Megan()) == Ok(a)
    ensures a.id == 1 && Ids(a.store, ActorKind) == {1} && a.store.movies == map[] && a.store.links == {}
    ensures a.store.nextMovieId == 1
  {
    assert Ids(Empty, ActorKind) == {};
    assert UnknownKeywords(ActorKind, Megan()) == {};
    assert Unstorable(ActorKind, Megan()) == {};
    CreateCommits(Empty, ActorKind, Megan());
    a := Create(Empty, ActorKind, Megan()).value;
  }

  /** `Movie.create(**data_movie)` next commits under key 1. */
  lemma FirstMovie(a: Created) returns (m: Created)
    requires a.id == 1 && Ids(a.store, ActorKind) == {1} && a.store.movies == map[] && a.store.links == {}
    requires a.store.nextMovieId == 1
    ensures Create(a.store, MovieKind, Transformers()) == Ok(m)
    ensures m.id == 1 && Ids(m.store, ActorKind) == {1} && Ids(m.store, MovieKind) == {1} && m.store.links == {}
    ensures m.store.nextMovieId == 2
  {
    assert Ids(a.store, MovieKind) == {};
    assert UnknownKeywords(MovieKind, Transformers()) == {};
    assert Unstorable(MovieKind, Transformers()) == {};
    CreateCommits(a.store, MovieKind, Transformers());
    m := Create(a.store, MovieKind, Transformers()).value;
    assert Ids(m.store, MovieKind) == {1};
  }

  /** Both updates of key 1 commit; the movie is renamed. */
  lemma Updates(m: Created) returns (s2: Store)
    requires m.id == 1 && Ids(m.store, ActorKind) == {1} && Ids(m.store, MovieKind) == {1} && m.store.links == {}
    requires m.store.nextMovieId == 2
    ensures Update(m.store, ActorKind, 1, MeganUpdated()).Ok?
    ensures Update(Update(m.store, ActorKind, 1, MeganUpdated()).value, MovieKind, 1, Turtles()) == Ok(s2)
    ensures Ids(s2, ActorKind) == {1} && Ids(s2, MovieKind) == {1} && s2.links == {} && s2.nextMovieId == 2
    ensures Attr(s2, MovieKind, 1, "name") == Text("Teenage Mutant Ninja Turtles")
  {
    var s1 := ActorUpdate(m.store);
    s2 := MovieUpdate(s1);
  }

  /** `Actor.update(actor.id, **data_actor_upd)` commits and leaves the key sets alone. */
  lemma ActorUpdate(s: Store) returns (s1: Store)
    requires Ids(s, ActorKind) == {1} && Ids(s, MovieKind) == {1} && s.links == {} && s.nextMovieId == 2
    ensures Update(s, ActorKind, 1, MeganUpdated()) == Ok(s1)
    ensures Ids(s1, ActorKind) == {1} && Ids(s1, MovieKind) == {1} && s1.links == {} && s1.nextMovieId == 2
  {
    assert Unstorable(ActorKind, MeganUpdated() - {"id"}) == {};
    UpdateCommits(s, ActorKind, 1, MeganUpdated());
    s1 := Update(s, ActorKind, 1, MeganUpdated()).value;
    assert Ids(s1, ActorKind) == {1};
    assert Ids(s1, MovieKind) == {1};
  }

  /** `Movie.update(movie.id, **data_movie_upd)` commits and renames the movie. */
  lemma MovieUpdate(s1: Store) returns (s2: Store)
    requires Ids(s1, ActorKind) == {1} && Ids(s1, MovieKind) == {1} && s1.links == {} && s1.nextMovieId == 2
    ensures Update(s1, MovieKind, 1, Turtles()) == Ok(s2)
    ensures Ids(s2, ActorKind) == {1} && Ids(s2, MovieKind) == {1} && s2.links == {} && s2.nextMovieId == 2
    ensures Attr(s2, MovieKind, 1, "name") == Text("Teenage Mutant Ninja Turtles")
  {
    assert Unstorable(MovieKind, Turtles() - {"id"}) == {};
    UpdateCommits(s1, MovieKind, 1, Turtles());
    s2 := Update(s1, MovieKind, 1, Turtles()).value;
    assert Ids(s2, MovieKind) == {1};
    assert "name" in Columns(MovieKind);
  }

  /** Linking movie 1, then `Movie.create(**data_movie)` again: the name is free once more, and the
      sequence hands out key 2. */
  lemma SecondMovie(s2: Store) returns (s3: Store, second: Created)
    requires Ids(s2, ActorKind) == {1} && Ids(s2, MovieKind) == {1} && s2.links == {} && s2.nextMovieId == 2
    requires Attr(s2, MovieKind, 1, "name") == Text("Teenage Mutant Ninja Turtles")
    ensures AddRelation(s2, ActorKind, 1, 1) == Ok(s3)
    ensures Create(s3, MovieKind, Transformers()) == Ok(second)
    ensures second.id == 2 && Has(second.store, ActorKind, 1) && Has(second.store, MovieKind, 2)
    ensures second.store.links == {(1, 1)}
  {
    assert AddRelation(s2, ActorKind, 1, 1).Ok?;
    s3 := AddRelation(s2, ActorKind, 1, 1).value;
    assert Ids(s3, MovieKind) == {1};
    assert UnknownKeywords(MovieKind, Transformers()) == {};
    assert Unstorable(MovieKind, Transformers()) == {};
    CreateCommits(s3, MovieKind, Transformers());
    second := Create(s3, MovieKind, Transformers()).value;
  }

  /** The filmography of actor 1 once it is linked to movies 1 and 2 and nothing else. */
  lemma LinkedToBoth(s: Store)
    requires s.links == {(1, 1), (1, 2)}
    ensures Filmography(s, 1) == {1, 2}
  {
    forall x ensures x in Filmography(s, 1) <==> x == 1 || x == 2 {
      ViewsAgree(s, 1, x);
    }
  }
}

=== FILE: seqs.dfy ===
/** Sequence and text helpers: order-preserving filtering, Python's `', '.join`, decimal
    rendering of integers, and the ascending enumeration of a set of keys. */
module Seqs {
  import opened Results

  /** The elements of `xs` that satisfy `keep`, in their original order (a Python list comprehension
      with an `if` clause). */
  function Filter<T>(xs: seq<T>, keep: T -> bool): seq<T>
  {
    if |xs| == 0 then []
    else (if keep(xs[0]) then [xs[0]] else []) + Filter(xs[1..], keep)
  }

  /** An element is kept exactly when it occurs and satisfies the test. */
  lemma {:induction false} FilterKeeps<T>(xs: seq<T>, keep: T -> bool)
    ensures forall x :: x in Filter(xs, keep) <==> x in xs && keep(x)
  {
    if |xs| > 0 {
      FilterKeeps(xs[1..], keep);
      assert xs == [xs[0]] + xs[1..];
    }
  }

  /** Filtering commutes with concatenation, so the kept elements keep their relative order. */
  lemma {:induction false} FilterAppend<T>(a: seq<T>, b: seq<T>, keep: T -> bool)
    ensures Filter(a + b, keep) == Filter(a, keep) + Filter(b, keep)
  {
    if |a| == 0 {
      assert a + b == b;
    } else {
      FilterAppend(a[1..], b, keep);
      var head := if keep(a[0]) then [a[0]] else [];
      assert (a + b)[0] == a[0] && (a + b)[1..] == a[1..] + b;
      assert Filter(a + b, keep) == head + (Filter(a[1..], keep) + Filter(b, keep));
      assert Filter(a, keep) == head + Filter(a[1..], keep);
    }
  }

  /** `sep.join(parts)`. */
  function Join(parts: seq<string>, sep: string): string
  {
    if |parts| == 0 then ""
    else if |parts| == 1 then parts[0]
    else parts[0] + sep + Join(parts[1..], sep)
  }

  predicate IsDigit(c: char) {
    '0' <= c <= '9'
  }

  predicate AllDigits(t: string) {
    forall i :: 0 <= i < |t| ==> IsDigit(t[i])
  }

  function DigitChar(d: nat): (c: char)
    requires d < 10
    ensures IsDigit(c) && c as int - '0' as int == d
  {
    "0123456789"[d]
  }

  /** The decimal digits of `n`, most significant first, with no leading zeros. */
  function NatToString(n: nat): (r: string)
    ensures |r| > 0 && AllDigits(r)
    decreases n
  {
    if n < 10 then [DigitChar(n)] else NatToString(n / 10) + [DigitChar(n % 10)]
  }

  /** Python's `str(i)` for an integer: an optional minus sign followed by the digits. */
  function IntToString(i: int): string {
    if i < 0 then "-" + NatToString(-i) else NatToString(i)
  }

  /** The number a non-empty run of decimal digits denotes. */
  function DigitsValue(t: string): nat
    requires AllDigits(t)
  {
    if |t| == 0 then 0 else DigitsValue(t[..|t| - 1]) * 10 + (t[|t| - 1] as int - '0' as int)
  }

  function UnsignedValue(t: string): Option<nat> {
    if |t| > 0 && AllDigits(t) then Some(DigitsValue(t)) else None
  }

  /** How the storage engine reads a text assigned to an integer column: an optional sign followed by
      at least one decimal digit. */
  function DecimalValue(t: string): Option<int> {
    var signed := |t| > 0 && (t[0] == '-' || t[0] == '+');
    var digits := if signed then t[1..] else t;
    match UnsignedValue(digits)
    case None => None
    case Some(n) =>
      var v: int := n;
      if signed && t[0] == '-' then Some(-v) else Some(v)
  }

  lemma LeastExists(xs: set<int>)
    requires xs != {}
    ensures exists m :: m in xs && forall x :: x in xs ==> m <= x
  {
    var m := LeastFound(xs);
  }

  lemma LeastFound(xs: set<int>) returns (m: int)
    requires xs != {}
    ensures m in xs && forall x :: x in xs ==> m <= x
    decreases |xs|
  {
    var y := PickOne(xs);
    var rest := xs - {y};
    if rest == {} {
      m := y;
      forall x | x in xs
        ensures m <= x
      {
        assert x !in rest;
      }
    } else {
      var r := LeastFound(rest);
      m := if y < r then y else r;
      forall x | x in xs
        ensures m <= x
      {
        if x != y {
          assert x in rest;
        }
      }
    }
  }

  lemma PickOne<T>(xs: set<T>) returns (y: T)
    requires xs != {}
    ensures y in xs
  {
    y :| y in xs;
  }

  /** The smallest element of a non-empty finite set of integers. */
  function Least(xs: set<int>): (m: int)
    requires xs != {}
    ensures m in xs && forall x :: x in xs ==> m <= x
  {
    LeastExists(xs);
    var m :| m in xs && forall x :: x in xs ==> m <= x;
    m
  }

  /** The elements of `xs` in ascending order, each exactly once. */
  function SortedInts(xs: set<int>): (r: seq<int>)
    ensures |r| == |xs|
    ensures forall x :: x in r <==> x in xs
    ensures forall i, j :: 0 <= i < j < |r| ==> r[i] < r[j]
    decreases |xs|
  {
    if xs == {} then []
    else
      var m := Least(xs);
      [m] + SortedInts(xs - {m})
  }
}

=== FILE: settings.dfy ===
/** The field lists and the date format shared by the request handlers (settings/constants.py). */
module Settings {

  /** The public fields of an actor, in declaration order. */
  const ActorFields: seq<string> := ["id", "name", "gender", "date_of_birth"]

  /** The public fields of a movie, in declaration order. */
  const MovieFields: seq<string> := ["id", "name", "year", "genre"]

  /** The `strptime` pattern a date of birth must follow: day.month.year. */
  const DateFormat: string := "%d.%m.%Y"
}
